=== FILE: README.md ===
# raycast-swift in Dafny

A model of the core of raycast-swift, a small recursive ray tracer. The model covers:

- **Vector arithmetic.** `Vector.swift` → module `Vectors`.
- **Scene objects.** `Object.swift` → module `Objects`. These are spheres and planes, with their ray intersection tests, surface normals, mirror reflections and equality.
- **The renderer.** `Raytrace.swift` → modules `Raycast`, `Shading` and `Camera`. This is the nearest-hit scan `shoot`, the recursive `shade`, the colour arithmetic of `directShade`, and the two camera loops.
- **The pixel buffer and its P6 PPM encoding.** `PPMImage.swift` → module `PPM`, with the decimal header text in `Decimal`.

Modelling choices:

- **Floats.** Swift `Float` values are modelled as reals. The algebraic facts about vectors, such as orthogonality of the cross product, the plane solution and the mirror being an involution, therefore hold exactly in the model. Under IEEE rounding they hold only approximately.
- **Infinity.** A ray distance is a `Dist`: either `Finite(t)` or `Inf`. `Inf` stands for the source's `.infinity`.
- **Maths library.** `sqrtf` and `powf` are fields of a `Libm` value supplied by the caller (module `MathLib`). Where a proof needs the square root to be exact, it states `ExactSqrt(m)` as a hypothesis.
- **Zero-length normalisation.** Normalising a zero-length vector divides by zero in the source and gives NaN components. In the model, every operation that may normalise a zero vector returns an `Option`, and `None` marks that case. `None` propagates through `shade`, `directShade` and the camera loops. With an exact square root, `Vectors.TryUnit` gives `None` for the zero vector and for no other, and `Vectors.UnitLength` shows that its result has length one.
- **Colour channels.** Channels are ints. `Pixel.Valid` says each channel is in 0..255. Proving `Valid` for every colour the renderer computes shows that none of the source's `UInt8(...)` conversions can trap.
- **The scene.** `Scene` holds the objects and the lights and is passed explicitly. In the source, `shade` reads the object list from a global (Raytrace.swift:124, 151), while the camera loops shoot primary rays at their own `objects` parameter (Raytrace.swift:41, 78). The camera members keep the two apart: `objects` is the camera's list and `scene.objects` stands for the global.
- **Sphere roots.** The sphere test is modelled as written: `(-b ± sqrtf(disc)) / 2*a` parses as `((-b ± sqrtf(disc)) / 2) * a`. This is the textbook root only for a unit direction.
  - `Root1` and `Root2` solve the quadratic when `a == 1`, and `QuadraticIsDistance` shows that the quadratic measures the squared distance from the centre. Together they give `SphereHitOnSurface`: for a unit direction and an exact square root, a finite hit lies on the sphere.
  - The perspective camera, reflections and shadow rays all travel along normalised directions, which have length one with an exact square root (`Vectors.UnitLength`).
  - The parallel camera shoots along the caller's direction as given (Raytrace.swift:66, 78). With a direction that is not of length one it can meet the case of `NonUnitDirectionMisses`, which exhibits a ray with direction `(0, 0, -2)` for which the test returns 64 instead of the crossing at 4.
- **Perspective rays.** The perspective camera normalises the pixel point itself (`pixelVector.unit()`), not its offset from the eye. `Camera.PrimaryRay` follows the code.

## Model

| member | source | states |
|---|---|---|
| `Vectors.Add` | raycast-swift/Vector.swift:35-37 | subtracting the addend from the sum gives back the first operand |
| `Vectors.Sub` | raycast-swift/Vector.swift:39-41 | the difference is the zero vector exactly when the operands are equal |
| `Vectors.Dot` | raycast-swift/Vector.swift:43-45 | a vector's dot product with itself is never negative |
| `Vectors.Cross` | raycast-swift/Vector.swift:47-51 | the cross product is orthogonal to both operands |
| `Vectors.Magnitude` | raycast-swift/Vector.swift:22-24 | with an exact square root the magnitude is non-negative, squares to the squared length, and is zero exactly for the zero vector |
| `Vectors.DotSelfZero` | raycast-swift/Vector.swift:43-45 | only the zero vector has squared length zero |
| `Vectors.Unit` | raycast-swift/Vector.swift:26-29 | for a non-zero magnitude, scaling the unit vector back by the magnitude recovers the vector |
| `Vectors.TryUnit` | raycast-swift/Vector.swift:26-29 | the unit vector exists exactly when the magnitude is non-zero, and then scales back to the vector; with an exact square root it is missing exactly for the zero vector |
| `Vectors.UnitLength` | raycast-swift/Vector.swift:26-29 | with an exact square root, the unit vector of a vector of non-zero magnitude has squared length one |
| `Vectors.Plus` | raycast-swift/Vector.swift:55-57 | the `+` operator agrees with `added(to:)` |
| `Vectors.Minus` | raycast-swift/Vector.swift:59-61 | the `-` operator agrees with `subtracted(by:)` |
| `Vectors.Times` | raycast-swift/Vector.swift:63-65 | `Vector * Float` agrees with `scaled(by:)` |
| `Vectors.TimesLeft` | raycast-swift/Vector.swift:67-69 | `Float * Vector` agrees with `scaled(by:)` |
| `Vectors.Equal` | raycast-swift/Vector.swift:71-73 | component-wise `==` holds exactly for equal vectors |
| `Vectors.EqualReflexiveSymmetric` | raycast-swift/Vector.swift:71-73 | `==` is reflexive and symmetric |
| `Vectors.Along` | raycast-swift/Raytrace.swift:130 | the point `direction.scaled(by: t).added(to: origin)` lies `t * direction` away from the origin |
| `Vectors.ScaleParallel` | raycast-swift/Vector.swift:31-33 | a scaled vector is parallel to the original and its squared length scales by `f * f` |
| `Vectors.DotSymmetric` | raycast-swift/Vector.swift:43-45 | the dot product is symmetric |
| `Vectors.DotScale` | raycast-swift/Vector.swift:43-45 | the dot product is linear in a scaled operand |
| `Vectors.DotAdd` | raycast-swift/Vector.swift:43-45 | the dot product is linear in a summed operand |
| `Vectors.AlongDot` | raycast-swift/Vector.swift:31-45 | the dot product of a ray point with a fixed vector grows linearly in the ray parameter |
| `Distances.Lower` | raycast-swift/Raytrace.swift:112 | subtracting the bias keeps infinity infinite and moves a finite distance down by exactly the bias |
| `Distances.LessStrictOrder` | raycast-swift/Raytrace.swift:105 | Float `<` with `.infinity` on top is a strict total order on distances |
| `Objects.ShapeOf` | raycast-swift/Object.swift:28 | the shape tag is `.sphere` exactly for spheres and `.plane` exactly for planes |
| `Objects.SphereHit` | raycast-swift/Object.swift:43-71 | a miss for a negative discriminant; a finite answer is a positive literal root; the smaller root when both are positive; a miss exactly when the discriminant is negative or neither root is positive |
| `Objects.SphereQuadratic` | raycast-swift/Object.swift:44-48 | the leading coefficient is never negative, and is zero only for the zero direction |
| `Objects.QuadraticIsDistance` | raycast-swift/Object.swift:44-48 | the quadratic at `t` is the squared distance of the ray point from the centre less the squared radius |
| `Objects.Root1` | raycast-swift/Object.swift:55 | for `a == 1` and an exact square root of the discriminant, the root solves the quadratic |
| `Objects.Root2` | raycast-swift/Object.swift:56 | for `a == 1` and an exact square root of the discriminant, the root solves the quadratic |
| `Objects.NearestRoot` | raycast-swift/Object.swift:50-69 | a miss for a negative discriminant; a finite answer is a positive literal root; the smaller root when both are positive; a miss exactly when the discriminant is negative or neither root is positive |
| `Objects.HitIsRoot` | raycast-swift/Object.swift:50-69 | for `a == 1` and an exact square root, a finite root choice solves the quadratic |
| `Objects.RootOnSurface` | raycast-swift/Object.swift:44-56 | every root of the quadratic is a parameter at which the ray is on the sphere |
| `Objects.SphereHitOnSurface` | raycast-swift/Object.swift:43-71 | for a unit direction and an exact square root, a finite sphere hit is a point on the sphere |
| `Objects.NonUnitDirectionMisses` | raycast-swift/Object.swift:55-56 | for direction `(0, 0, -2)` and the sphere of radius 3 at `(2, 1, -10)` the test answers 64, while the crossings are at 4 and 6 |
| `Objects.PlaneHit` | raycast-swift/Object.swift:99-118 | a miss for a ray parallel to the plane; a finite answer is non-negative and solves the plane equation for the ray parameter |
| `Objects.PlaneNumeratorIs` | raycast-swift/Object.swift:105-110 | the accumulated `v0` equals `point . normal - origin . normal` |
| `Objects.OnPlane` | raycast-swift/Object.swift:99-118 | the point at a solving parameter lies on the plane, so every finite plane hit is on the plane |
| `Objects.PlaneHitComplete` | raycast-swift/Object.swift:99-118 | a non-parallel ray that meets the plane at `t >= 0` gets exactly `t` |
| `Objects.Intersects` | raycast-swift/Object.swift:22 | dispatch on the variant: never a negative distance, and a miss for a ray parallel to a plane |
| `Objects.Normal` | raycast-swift/Object.swift:73-75 | a plane's normal is its stored normal (`normal(at:)` of `Plane`, Object.swift:120-122); a sphere's normal exists exactly when the offset from the centre has non-zero magnitude, and then scales back to that offset |
| `Objects.SphereNormalUnit` | raycast-swift/Object.swift:73-75 | with an exact square root, a sphere's normal has length one, so the mirror lemmas apply to spheres |
| `Objects.PlaneReflects` | raycast-swift/Object.swift:124-127 | with an exact square root, a plane with a unit normal reflects every non-zero direction into a defined, non-zero direction |
| `Objects.MirrorNonZero` | raycast-swift/Object.swift:124-126 | for a unit normal the mirror image of a non-zero direction is non-zero |
| `Objects.MirrorRaw` | raycast-swift/Object.swift:124-126 | the mirror image differs from the direction by a multiple of the normal, and a direction orthogonal to the normal is kept |
| `Objects.Reflection` | raycast-swift/Object.swift:77-80 | defined exactly when the normal and the mirror image can be normalised, and then the normalised mirror image |
| `Objects.MirrorFlipsNormal` | raycast-swift/Object.swift:124-127 | for a unit normal the mirror image has the opposite component along the normal |
| `Objects.MirrorKeepsLength` | raycast-swift/Object.swift:124-127 | for a unit normal mirroring keeps the squared length |
| `Objects.MirrorInvolution` | raycast-swift/Object.swift:124-127 | for a unit normal mirroring twice gives back the direction |
| `Objects.UndoScale` | raycast-swift/Vector.swift:31-37 | adding `-f n` undoes adding `f n` |
| `Objects.ObjectsEqual` | raycast-swift/Object.swift:130-153 | the `==` overloads hold exactly for structurally equal objects, and never across shapes |
| `Raycast.Scan` | raycast-swift/Raytrace.swift:99-109 | no index exactly when every distance is infinite; otherwise the first of the nearest finite distances, and its distance |
| `Raycast.FirstNearestUnique` | raycast-swift/Raytrace.swift:105 | the first nearest entry is unique |
| `Raycast.Intersections` | raycast-swift/Raytrace.swift:103-104 | one distance per object, never negative, and a miss for every plane the ray runs parallel to |
| `Raycast.IntersectionsAppend` | raycast-swift/Raytrace.swift:103-104 | each object's distance depends on that object alone: the distances of two lists joined are the two lists' distances joined |
| `Raycast.Shoot` | raycast-swift/Raytrace.swift:98-115 | no object exactly when the distance is infinite and exactly when every object is missed; otherwise the first object at the smallest distance, reported less the bias |
| `Raycast.ShootFromScene` | raycast-swift/Raytrace.swift:103-107 | the object hit is one of the objects checked |
| `Raycast.ShootLoop` | raycast-swift/Raytrace.swift:98-115 | the loop of `shoot` computes the same hit and distance as `Shoot` |
| `Shading.Truncate` | raycast-swift/Raytrace.swift:134 | `Int`/`UInt8` of a `Float` drops the fraction towards zero |
| `Shading.Saturate` | raycast-swift/Raytrace.swift:164-166 | `min(255, max(0, v))` is a byte, equal to `v` when `v` is a byte, 0 below and 255 above |
| `Shading.ClampChannel` | raycast-swift/Raytrace.swift:203-222 | the `if`-chain clamp of `directShade` agrees with the `min`/`max` clamp |
| `Shading.Attenuate` | raycast-swift/Raytrace.swift:134-136 | a channel dimmed by a reflectivity in [0, 1] is a byte no larger than before, unchanged at 1 and zero at 0 |
| `Shading.ScaleDown` | raycast-swift/Raytrace.swift:134-136 | a non-negative value times a factor in [0, 1] lies between 0 and the value |
| `Shading.AttenuatePixel` | raycast-swift/Raytrace.swift:134-136 | the dimmed pixel is valid, no brighter in any channel, and black at reflectivity 0 |
| `Shading.Boost` | raycast-swift/Raytrace.swift:172 | the ambient boost never darkens, stays a byte, and maps exactly zero to zero |
| `Shading.BoostPixel` | raycast-swift/Raytrace.swift:172-174 | the boosted pixel is valid, no darker, and black exactly when the input was black |
| `Shading.AddPixels` | raycast-swift/Raytrace.swift:164-168 | the saturating sum is valid, is no darker than either operand, is the plain sum when that fits, and adding black changes nothing |
| `Shading.ToChannel` | raycast-swift/Raytrace.swift:203-208 | `Int(x * 255)` clamped is always a byte |
| `Shading.DirectShade` | raycast-swift/Raytrace.swift:179-225 | defined exactly when the normal and the reflection are, and then a valid pixel |
| `Shading.DirectShadeBlack` | raycast-swift/Raytrace.swift:189-201 | a black light contributes black, whatever the geometry |
| `Shading.DiffuseDark` | raycast-swift/Raytrace.swift:191-193 | the diffuse term of a black light is zero |
| `Shading.SpecularDark` | raycast-swift/Raytrace.swift:195-197 | the specular term of a black light is zero |
| `Shading.Contributes` | raycast-swift/Raytrace.swift:152-161 | the shadow test passes exactly when the light's ray hits this very object at a finite distance within 0.1 of the light's distance |
| `Shading.LightStep` | raycast-swift/Raytrace.swift:146-170 | one light keeps the colour valid and never darker, leaves it unchanged when it fails the shadow test, and is undefined when the direction from the light cannot be normalised |
| `Shading.StepLit` | raycast-swift/Raytrace.swift:146-170 | a light that passes the shadow test adds exactly its `directShade` contribution, saturated |
| `Shading.Illuminate` | raycast-swift/Raytrace.swift:146-170 | the lights loop keeps the colour valid and never darker |
| `Shading.IlluminateSplit` | raycast-swift/Raytrace.swift:146-170 | the loop over all lights is the loop over the first `k` followed by the loop over the rest from the colour the first part leaves |
| `Shading.IlluminateLitAt` | raycast-swift/Raytrace.swift:146-170 | the loop started at a light that reaches the point ends no darker than that light's contribution |
| `Shading.IlluminateLit` | raycast-swift/Raytrace.swift:146-170 | whatever the other lights do, the loop ends no darker than the contribution of any light that reaches the point |
| `Shading.Shade` | raycast-swift/Raytrace.swift:117-177 | black past the recursion limit or without an object; otherwise a valid pixel, and the recursion terminates |
| `Shading.DarkWithoutLights` | raycast-swift/Raytrace.swift:117-177 | with no lights, a surface of reflectivity 0 is drawn black |
| `Shading.ShadeLit` | raycast-swift/Raytrace.swift:117-177 | the colour `shade` draws for an object within the recursion limit is no darker than the contribution of any light that reaches the point |
| `Shading.ShadeDefinedPlanes` | raycast-swift/Raytrace.swift:117-177 | with an exact square root, in a scene of unit-normal planes without lights, `shade` is defined for every non-zero direction at every level |
| `Shading.PlaneLightDefined` | raycast-swift/Raytrace.swift:138-140 | on a plane with a unit normal, `directShade` of light arriving against a non-zero reflected direction is defined |
| `Camera.CellCentre` | raycast-swift/Raytrace.swift:22-23 | the centre of a cell lies strictly inside the extent |
| `Camera.CentreInside` | raycast-swift/Raytrace.swift:32 | `(extent / n) * (k + 0.5)` lies strictly between 0 and the extent for `k < n` |
| `Camera.PixelPoint` | raycast-swift/Raytrace.swift:32-37 | the pixel point is on the view plane `z = -0.4` and inside the world rectangle |
| `Camera.PrimaryRay` | raycast-swift/Raytrace.swift:36-42 | the parallel ray starts at the pixel point with the given direction; the perspective ray starts at the eye, exists exactly when the pixel point has non-zero length, and scales back to it |
| `Camera.PixelColor` | raycast-swift/Raytrace.swift:39-43 | a valid pixel, black when the primary ray misses every object of the camera's list |
| `Camera.PixelLit` | raycast-swift/Raytrace.swift:39-43 | when the primary ray hits a surface that some light reaches, the pixel is no darker than that light's contribution there |
| `Camera.Render` | raycast-swift/Raytrace.swift:21-59 | every cell gets its own pixel's colour, the dimensions and maximum value are kept, and the image is valid; no image exactly when some pixel has no colour |
| `Camera.RenderRow` | raycast-swift/Raytrace.swift:34-44 | cell `j` of row `i` gets the colour of pixel `(i, j)`; no row exactly when some pixel in it has no colour |
| `PPM.PixelEqual` | raycast-swift/PPMImage.swift:55-59 | pixel `==` holds exactly for equal pixels |
| `PPM.NewImage` | raycast-swift/PPMImage.swift:27-33 | no image exactly when a dimension is negative (the array trap); otherwise a valid image of the requested dimensions whose every pixel is black |
| `PPM.Header` | raycast-swift/PPMImage.swift:36 | the header starts with the magic number `P6\n` |
| `PPM.Field` | raycast-swift/PPMImage.swift:36 | every header field ends with a newline |
| `PPM.HeaderAscii` | raycast-swift/PPMImage.swift:36-37 | the header is plain ASCII, so its UTF-8 encoding is one byte per character |
| `PPM.RowBytes` | raycast-swift/PPMImage.swift:39-43 | a row of pixels takes three bytes per pixel |
| `PPM.RowBytesIndex` | raycast-swift/PPMImage.swift:40-42 | byte `3 j + k` of a row is channel `k` of its pixel `j` |
| `PPM.Encode` | raycast-swift/PPMImage.swift:35-44 | the encoding is the header followed by exactly `3 * width * height` pixel bytes |
| `PPM.PayloadSizeIs` | raycast-swift/PPMImage.swift:38-44 | `height` rows of `width` pixels take `3 * width * height` bytes |
| `PPM.OffsetIs` | raycast-swift/PPMImage.swift:38-44 | pixel `[i][j]` starts `3 (i width + j)` bytes into the pixel data |
| `PPM.PayloadIndex` | raycast-swift/PPMImage.swift:38-44 | the pixel bytes hold channel `k` of pixel `[i][j]` at its row-major offset |
| `PPM.EncodeIndex` | raycast-swift/PPMImage.swift:35-44 | after the header, byte `3 (i width + j) + k` is channel `k` of pixel `[i][j]` |
| `PPM.EncodeHeaderIndependent` | raycast-swift/PPMImage.swift:36 | the header depends on the dimensions and maximum value only, never on the pixels |
| `PPM.EncodeBytes` | raycast-swift/PPMImage.swift:35-44 | every byte of a valid image's encoding lies in 0..255 |
| `PPM.Decode` | raycast-swift/PPMImage.swift:35-44 | a decoded image is well formed |
| `PPM.DecodeEncode` | raycast-swift/PPMImage.swift:35-44 | decoding the encoding gives back the image: dimensions, maximum value and every pixel |
| `PPM.RowsRoundTrip` | raycast-swift/PPMImage.swift:38-44 | splitting the pixel bytes into rows gives back the rows |
| `PPM.RowRoundTrip` | raycast-swift/PPMImage.swift:39-43 | splitting a row's bytes into pixels gives back the row |
| `PPM.WriteBytes` | raycast-swift/PPMImage.swift:35-44 | the nested loops of `write(to:)` produce exactly `Encode` |
| `PPM.AppendRow` | raycast-swift/PPMImage.swift:39-43 | the inner loop appends exactly the row's bytes |
| `Decimal.Digits` | raycast-swift/PPMImage.swift:36 | at least one decimal digit, with no leading zero |
| `Decimal.Text` | raycast-swift/PPMImage.swift:36 | `"\(i)"` starts with a minus sign exactly for a negative value, followed by at least one digit and no leading zero |
| `Decimal.TextAscii` | raycast-swift/PPMImage.swift:36 | the decimal text of an integer is plain ASCII |
| `Decimal.ValueDigits` | raycast-swift/PPMImage.swift:36 | reading the printed digits back gives the number |
| `Decimal.NatLineRoundTrip` | raycast-swift/PPMImage.swift:36 | a printed natural number ended by a newline parses back, leaving the rest |
| `Decimal.IntLineRoundTrip` | raycast-swift/PPMImage.swift:36 | a printed integer ended by a newline parses back, leaving the rest |

## Left out

- `main.swift`, which builds the example scene and chooses the camera and the output file, is not part of this model.
- The `PointLight` declaration is not part of this model. `Raycast.PointLight` is modelled from its uses in `shade`: a `position` and a `color`.
- File output: `byteData.write(to:)` and its error printing (PPMImage.swift:46-51) are I/O. `PPM.WriteBytes` stops at the byte sequence.
- Progress printing in the camera loops (Raytrace.swift:46-58 and 83-95) is console output and does not affect the image.
- IEEE `Float` rounding, NaN and infinity arithmetic beyond `.infinity` as a miss distance. The model uses reals.
- Zero-length normalisation: the source goes on with NaN components after normalising a zero vector, and the model stops with `None`. The model therefore says nothing about the colours the source draws from NaN geometry.
- `Int(...)` and `UInt8(...)` traps on out-of-range or NaN `Float` values are not modelled. For the `UInt8(...)` conversions (Raytrace.swift:134-136, 164-166, 172-174 and 224), `Pixel.Valid` shows the converted value is in range. The `Int(illumination * 255)` conversions of `directShade` (Raytrace.swift:203, 210 and 217) are unconstrained: `powf` is supplied by the caller, so nothing bounds the product before it is clamped, and `Shading.Truncate` is unbounded.
- `sqrtf` and `powf` are supplied by the caller. Their numerical behaviour is not modelled.
- `Vectors.Magnitude`, `Vectors.UnitLength` and `Vectors.TryUnit`: the facts about length hold under `ExactSqrt`. For an inexact `sqrtf` they say nothing.
- `Objects.SphereHit`: a finite hit is on the sphere only for a unit direction and an exact square root (`Objects.SphereHitOnSurface`). The parallel camera does not normalise its direction, so nothing is promised for a parallel render with a direction of another length (see `Objects.NonUnitDirectionMisses`).
- `Objects.MirrorKeepsLength`: proved only for a unit normal. Sphere normals meet this under `ExactSqrt` (`Objects.SphereNormalUnit`). Plane normals are taken as given, and the source does not normalise them.
- `Objects.MirrorInvolution`: proved only for a unit normal, for the same reason.
- `Vectors.Scale`: carries no contract of its own. `Vectors.ScaleParallel` states its properties as a lemma, and `Vectors.DotScale` states the linearity of the dot product in a scaled operand.
- `Shading.DirectShade`: the channel values of the diffuse and specular terms are not related to the lighting formula beyond being clamped bytes. Only the black-light case (`Shading.DirectShadeBlack`) is stated exactly.
- `Shading.Shade`: its contract does not say when it is defined. That depends on normalising vectors the geometry may make zero. Definedness is proved only for scenes of planes with unit normals and no lights, in `Shading.ShadeDefinedPlanes`; `Shading.ShadeLit` bounds the colour from below whenever it is defined.
- `Camera.PixelColor`: likewise promises nothing about definedness. `Camera.PixelLit` bounds the colour from below by the contribution of any light that reaches the hit point.
- Reflectivity range: a valid object has a reflectivity in [0, 1]. The source does not check this; outside that range `UInt8(Float(c) * reflectivity)` can trap, which the model does not follow.
- Concurrency: the source is single-threaded, and the model has none.

=== FILE: camera.dfy ===
/** The camera loops (`perspective` and `parallel` in Raytrace.swift): one
    primary ray per pixel, shot through the centre of the pixel's cell on the
    view plane `z = -0.4`, and the shaded colour stored in that cell. */
module Camera {
  import opened Optional
  import opened MathLib
  import opened Vectors
  import opened Distances
  import opened PPM
  import opened Objects
  import opened Raycast
  import opened Shading

  /** The extent of the view plane in world units. */
  datatype World = World(width: real, height: real)

  /** The two cameras: rays from one eye point through each pixel, or parallel
      rays along one direction from each pixel. */
  datatype Projection = Perspective(origin: Vector) | Parallel(direction: Vector)

  /** The depth of the view plane. */
  const ViewPlane: real := -0.4

  /** The offset of the centre of cell `k` of `n` equal cells across `extent`:
      `(extent / n) * (k + 0.5)`. */
  function CellCentre(extent: real, n: nat, k: nat): (r: real)
    requires k < n
    ensures 0.0 < extent ==> 0.0 < r < extent
  {
    CentreInside(extent, n as real, k as real);
    Product(extent / n as real, k as real + 0.5)
  }

  lemma CentreInside(extent: real, n: real, k: real)
    requires 0.0 <= k && k + 1.0 <= n
    ensures 0.0 < extent ==> 0.0 < Product(extent / n, k + 0.5) < extent
  {
    if 0.0 < extent {
      var cell := extent / n;
      assert 0.0 < cell;
      assert Product(cell, n) == extent;
      assert Product(cell, n) - Product(cell, k + 0.5) == Product(cell, n - k - 0.5);
    }
  }

  /** The point on the view plane at the centre of pixel `(i, j)`: row `i` from
      the top edge `height / 2` downwards, column `j` from the left edge
      `-width / 2` rightwards. For a view plane of positive size it lies inside
      the plane's rectangle. */
  function PixelPoint(world: World, width: nat, height: nat, i: nat, j: nat): (p: Vector)
    requires i < height && j < width
    ensures p.z == ViewPlane
    ensures 0.0 < world.width ==> -world.width / 2.0 < p.x < world.width / 2.0
    ensures 0.0 < world.height ==> -world.height / 2.0 < p.y < world.height / 2.0
  {
    Vector(0.0 - world.width / 2.0 + CellCentre(world.width, width, j),
           0.0 + world.height / 2.0 - CellCentre(world.height, height, i),
           ViewPlane)
  }

  /** The primary ray of pixel `(i, j)` as origin and direction. The perspective
      camera normalises the pixel point itself (not its offset from the eye),
      which fails for a zero vector; the parallel camera starts at the pixel
      point and uses the direction as given. */
  function PrimaryRay(projection: Projection, point: Vector, m: Libm): (r: Option<(Vector, Vector)>)
    ensures projection.Parallel? ==> r == Some((point, projection.direction))
    ensures projection.Perspective? ==>
      (r.Some? <==> Magnitude(point, m) != 0.0)
    ensures projection.Perspective? && r.Some? ==>
      r.value.0 == projection.origin && Scale(r.value.1, Magnitude(point, m)) == point
  {
    match projection
    case Perspective(origin) =>
      var direction :- TryUnit(point, m);
      Some((origin, direction))
    case Parallel(direction) => Some((point, direction))
  }

  /** The colour the camera stores in cell `(i, j)`: black when the primary ray
      misses everything, otherwise the shaded colour at the point it hits. The
      primary ray is shot at `objects`, the camera's own list, while `shade`
      reads the scene's objects; a caller may pass `scene.objects` for both. */
  function PixelColor(scene: Scene, objects: seq<Object>, world: World, projection: Projection,
                      width: nat, height: nat, i: nat, j: nat, m: Libm): (r: Option<Pixel>)
    requires scene.Valid() && i < height && j < width
    requires forall k :: 0 <= k < |objects| ==> objects[k].Valid()
    ensures r.Some? ==> r.value.Valid()
    ensures PrimaryRay(projection, PixelPoint(world, width, height, i, j), m).Some? ==>
      var ray := PrimaryRay(projection, PixelPoint(world, width, height, i, j), m).value;
      Shoot(objects, ray.0, ray.1, m).obj.None? ==> r == Some(Black)
  {
    var ray :- PrimaryRay(projection, PixelPoint(world, width, height, i, j), m);
    var hit := Shoot(objects, ray.0, ray.1, m);
    ShootFromScene(objects, ray.0, ray.1, m);
    match hit.distance
    case Inf => Shade(scene, m, None, ray.0, ray.1, 0)
    case Finite(t) => Shade(scene, m, hit.obj, Along(ray.0, ray.1, t), ray.1, 0)
  }

  /** When the primary ray hits a surface that some light reaches, the pixel
      is no darker than that light's contribution there. */
  lemma PixelLit(scene: Scene, objects: seq<Object>, world: World, projection: Projection,
                 width: nat, height: nat, i: nat, j: nat, m: Libm, k: nat, p: Pixel)
    requires scene.Valid() && i < height && j < width
    requires forall n :: 0 <= n < |objects| ==> objects[n].Valid()
    requires PrimaryRay(projection, PixelPoint(world, width, height, i, j), m).Some?
    requires var ray := PrimaryRay(projection, PixelPoint(world, width, height, i, j), m).value;
      var hit := Shoot(objects, ray.0, ray.1, m);
      && hit.obj.Some? && hit.distance.Finite? && k < |scene.lights|
      && LitBy(scene, m, hit.obj.value, Along(ray.0, ray.1, hit.distance.t), ray.1, scene.lights[k], p)
    ensures var r := PixelColor(scene, objects, world, projection, width, height, i, j, m);
      r.Some? ==> p.r <= r.value.r && p.g <= r.value.g && p.b <= r.value.b
  {
    var ray := PrimaryRay(projection, PixelPoint(world, width, height, i, j), m).value;
    var hit := Shoot(objects, ray.0, ray.1, m);
    ShootFromScene(objects, ray.0, ray.1, m);
    ShadeLit(scene, m, hit.obj.value, Along(ray.0, ray.1, hit.distance.t), ray.1, 0, k, p);
  }

  /** The two nested loops writing `image.data[i][j]`: every cell inside the
      image gets the colour of its own pixel, the dimensions and the maximum
      value stay as they were, and nothing depends on the old contents. `None`
      when some pixel's colour is undefined. */
  method Render(scene: Scene, objects: seq<Object>, world: World, projection: Projection, image: Image, m: Libm)
    returns (r: Option<Image>)
    requires scene.Valid() && image.WellFormed()
    requires forall k :: 0 <= k < |objects| ==> objects[k].Valid()
    ensures r.Some? <==> forall i, j :: 0 <= i < image.height && 0 <= j < image.width ==>
      PixelColor(scene, objects, world, projection, image.width, image.height, i, j, m).Some?
    ensures r.Some? ==> r.value.Valid()
    ensures r.Some? ==> r.value.width == image.width && r.value.height == image.height && r.value.maxValue == image.maxValue
    ensures r.Some? ==> forall i, j :: 0 <= i < image.height && 0 <= j < image.width ==>
      Some(r.value.data[i][j]) == PixelColor(scene, objects, world, projection, image.width, image.height, i, j, m)
  {
    var data := image.data;
    for i := 0 to image.height
      invariant |data| == image.height
      invariant forall a :: 0 <= a < image.height ==> |data[a]| == image.width
      invariant forall a, b :: 0 <= a < i && 0 <= b < image.width ==>
        Some(data[a][b]) == PixelColor(scene, objects, world, projection, image.width, image.height, a, b, m)
    {
      var row := RenderRow(scene, objects, world, projection, image.width, image.height, i, data[i], m);
      if row.None? {
        return None;
      }
      data := data[i := row.value];
    }
    r := Some(Image(image.width, image.height, image.maxValue, data));
  }

  /** The inner loop for row `i`: cell `j` of the row gets the colour of pixel
      `(i, j)`, in column order. */
  method RenderRow(scene: Scene, objects: seq<Object>, world: World, projection: Projection,
                   width: nat, height: nat, i: nat, row: seq<Pixel>, m: Libm) returns (r: Option<seq<Pixel>>)
    requires scene.Valid() && i < height && |row| == width
    requires forall k :: 0 <= k < |objects| ==> objects[k].Valid()
    ensures r.Some? <==> forall j :: 0 <= j < width ==>
      PixelColor(scene, objects, world, projection, width, height, i, j, m).Some?
    ensures r.Some? ==> |r.value| == width
    ensures r.Some? ==> forall j :: 0 <= j < width ==>
      Some(r.value[j]) == PixelColor(scene, objects, world, projection, width, height, i, j, m)
  {
    var cells := row;
    for j := 0 to width
      invariant |cells| == width
      invariant forall b :: 0 <= b < j ==>
        Some(cells[b]) == PixelColor(scene, objects, world, projection, width, height, i, b, m)
    {
      var p := PixelColor(scene, objects, world, projection, width, height, i, j, m);
      if p.None? {
        return None;
      }
      cells := cells[j := p.value];
    }
    r := Some(cells);
  }
}

=== FILE: decimal.dfy ===
/** Decimal text of integers as ASCII byte values, the way Swift's string
    interpolation `"\(n)"` prints an `Int`, and the matching parser. */
module Decimal {
  import opened Optional
  import opened Sequences

  const DigitZero: int := 48   // '0'
  const MinusSign: int := 45  // '-'
  const Newline: int := 10 // '\n'

  predicate IsDigit(c: int) {
    DigitZero <= c <= DigitZero + 9
  }

  /** The digits of `n`, most significant first, without leading zeros. */
  function Digits(n: nat): (r: seq<int>)
    ensures 1 <= |r|
    ensures forall k :: 0 <= k < |r| ==> IsDigit(r[k])
    ensures |r| > 1 ==> r[0] != DigitZero
    decreases n
  {
    if n < 10 then [DigitZero + n] else Digits(n / 10) + [DigitZero + n % 10]
  }

  /** `"\(i)"` for an `Int`: a minus sign before the digits of a negative value;
      after the sign, digits with no leading zero. */
  function Text(i: int): (r: seq<int>)
    ensures 1 <= |r|
    ensures i < 0 <==> r[0] == MinusSign
    ensures var digits := if i < 0 then r[1..] else r;
      && 1 <= |digits|
      && (forall k :: 0 <= k < |digits| ==> IsDigit(digits[k]))
      && (|digits| > 1 ==> digits[0] != DigitZero)
  {
    if i < 0 then [MinusSign] + Digits(-i) else Digits(i)
  }

  /** Every byte is a 7-bit ASCII code. */
  predicate Ascii(s: seq<int>) {
    forall k :: 0 <= k < |s| ==> 0 <= s[k] < 128
  }

  lemma AsciiAppend(a: seq<int>, b: seq<int>)
    requires Ascii(a) && Ascii(b)
    ensures Ascii(a + b)
  {
  }

  /** The text of an integer is plain ASCII. */
  lemma TextAscii(i: int)
    ensures Ascii(Text(i))
  {
  }

  /** The number a run of digits denotes. */
  function Value(ds: seq<int>): nat
    requires forall k :: 0 <= k < |ds| ==> IsDigit(ds[k])
  {
    if |ds| == 0 then 0
    else
      var last := ds[|ds| - 1];
      assert IsDigit(last);
      Value(ds[..|ds| - 1]) * 10 + (last - DigitZero)
  }

  /** The length of the run of digits at the front of `s`. */
  function DigitSpan(s: seq<int>): (k: nat)
    ensures k <= |s|
    ensures forall i :: 0 <= i < k ==> IsDigit(s[i])
    ensures k < |s| ==> !IsDigit(s[k])
  {
    if |s| == 0 || !IsDigit(s[0]) then 0 else 1 + DigitSpan(s[1..])
  }

  /** Reads a non-empty run of digits ended by a newline, and returns the number
      with the bytes after the newline. */
  function ParseNatLine(s: seq<int>): (r: Option<(nat, seq<int>)>)
    ensures r.Some? ==> |r.value.1| < |s|
  {
    var k := DigitSpan(s);
    if k == 0 || k == |s| || s[k] != Newline then None
    else Some((Value(s[..k]), s[k + 1..]))
  }

  /** Reads an optionally negative number ended by a newline. */
  function ParseIntLine(s: seq<int>): (r: Option<(int, seq<int>)>)
    ensures r.Some? ==> |r.value.1| < |s|
  {
    if 0 < |s| && s[0] == MinusSign then
      var p :- ParseNatLine(s[1..]);
      var n: int := p.0;
      Some((-n, p.1))
    else
      var p :- ParseNatLine(s);
      var n: int := p.0;
      Some((n, p.1))
  }

  /** Reading the digits back gives the number. */
  lemma {:induction false} ValueDigits(n: nat)
    ensures Value(Digits(n)) == n
    decreases n
  {
    if n >= 10 {
      var ds := Digits(n);
      assert ds[..|ds| - 1] == Digits(n / 10);
      ValueDigits(n / 10);
    }
  }

  /** The digit run of `ds` followed by a non-digit is all of `ds`. */
  lemma {:induction false} SpanOfDigits(ds: seq<int>, rest: seq<int>)
    requires forall k :: 0 <= k < |ds| ==> IsDigit(ds[k])
    requires 0 < |rest| && !IsDigit(rest[0])
    ensures DigitSpan(ds + rest) == |ds|
    decreases |ds|
  {
    if |ds| > 0 {
      assert (ds + rest)[1..] == ds[1..] + rest;
      SpanOfDigits(ds[1..], rest);
    }
  }

  /** A natural number printed and ended by a newline parses back. */
  lemma NatLineRoundTrip(n: nat, rest: seq<int>)
    ensures ParseNatLine(Digits(n) + [Newline] + rest) == Some((n, rest))
  {
    var s := Digits(n) + [Newline] + rest;
    assert s == Digits(n) + ([Newline] + rest);
    SpanOfDigits(Digits(n), [Newline] + rest);
    assert s[..|Digits(n)|] == Digits(n);
    assert s[|Digits(n)| + 1..] == rest;
    ValueDigits(n);
  }

  /** An integer printed by `Text` and ended by a newline parses back. */
  lemma IntLineRoundTrip(i: int, rest: seq<int>)
    ensures ParseIntLine(Text(i) + [Newline] + rest) == Some((i, rest))
  {
    if i < 0 {
      var ds := Digits(-i);
      Associative([MinusSign], ds, [Newline]);
      Associative([MinusSign], ds + [Newline], rest);
      SplitAt([MinusSign], ds + [Newline] + rest);
      NatLineRoundTrip(-i, rest);
    } else {
      NatLineRoundTrip(i, rest);
    }
  }
}

=== FILE: distance.dfy ===
/** Ray distances. The source returns a `Float` that is either a finite
    parameter along the ray or `.infinity` for a miss; `Dist` makes the
    infinite case explicit. */
module Distances {

  datatype Dist = Finite(t: real) | Inf

  /** Float `<` with `.infinity` as the greatest value: every finite distance is
      below `Inf`, and `Inf` is below nothing. */
  predicate Less(d: Dist, e: Dist) {
    match (d, e)
    case (Finite(a), Finite(b)) => a < b
    case (Finite(_), Inf) => true
    case (Inf, _) => false
  }

  /** `d - x` for a finite `x`: infinity minus a finite value stays infinite. */
  function Lower(d: Dist, x: real): (r: Dist)
    ensures r.Inf? <==> d.Inf?
    ensures r.Finite? ==> r.t + x == d.t
  {
    match d
    case Inf => Inf
    case Finite(t) => Finite(t - x)
  }

  /** `Less` is a strict total order on distances. */
  lemma LessStrictOrder(d: Dist, e: Dist, f: Dist)
    ensures !Less(d, d)
    ensures Less(d, e) ==> !Less(e, d)
    ensures Less(d, e) && Less(e, f) ==> Less(d, f)
    ensures d != e ==> Less(d, e) || Less(e, d)
  {
  }
}

=== FILE: mathlib.dfy ===
/** The two C math routines the renderer calls, `sqrtf` and `powf`. Their numeric
    values are not modelled: the caller supplies them, and a proof that needs a
    fact about `sqrtf` states it as a hypothesis. */
module MathLib {

  datatype Libm = Libm(sqrt: real -> real, pow: (real, real) -> real)

  /** `sqrtf` is the exact non-negative square root on non-negative arguments
      (and so maps zero to zero). */
  ghost predicate ExactSqrt(m: Libm) {
    && m.sqrt(0.0) == 0.0
    && forall x: real :: 0.0 <= x ==> 0.0 <= m.sqrt(x) && m.sqrt(x) * m.sqrt(x) == x
  }

  /** A product of reals behind a name, so that facts about it are proved once
      by small lemmas instead of by the solver's non-linear search. */
  function Product(a: real, b: real): real {
    a * b
  }
}

=== FILE: object.dfy ===
/** The scene's primitives (Object.swift): spheres and planes, their ray
    intersection tests, surface normals, mirror reflections and equality. */
module Objects {
  import opened Optional
  import opened MathLib
  import opened Vectors
  import opened Distances
  import opened PPM

  /** The `Shape` tag each object carries. */
  datatype Shape = SphereShape | PlaneShape

  /** The two classes conforming to the `Object` protocol. */
  datatype Object =
    | Sphere(center: Vector, radius: real, reflectivity: real, color: Pixel)
    | Plane(point: Vector, normal: Vector, reflectivity: real, color: Pixel)
  {
    /** What the shading code needs of an object: a reflectivity in [0, 1], so
        that attenuated channels stay bytes, and a colour of bytes. */
    predicate Valid() {
      0.0 <= reflectivity <= 1.0 && color.Valid()
    }
  }

  /** The `shape` property: `.sphere` for a `Sphere`, `.plane` for a `Plane`. */
  function ShapeOf(o: Object): (s: Shape)
    ensures s == SphereShape <==> o.Sphere?
    ensures s == PlaneShape <==> o.Plane?
  {
    match o
    case Sphere(_, _, _, _) => SphereShape
    case Plane(_, _, _, _) => PlaneShape
  }

  /** The coefficients of `a t^2 + b t + c` for a ray meeting a sphere. */
  datatype Quadratic = Quadratic(a: real, b: real, c: real)

  /** The quadratic `a`, `b`, `c` of Object.swift's sphere test; `a` is the squared
      length of the direction, so it is never negative and zero only for a zero
      direction. `QuadraticIsDistance` says what the quadratic measures. */
  function SphereQuadratic(center: Vector, radius: real, origin: Vector, direction: Vector): (q: Quadratic)
    ensures 0.0 <= q.a
    ensures q.a == 0.0 ==> direction == Zero
  {
    DotSelfZero(direction);
    var toOrigin := Sub(origin, center);
    Quadratic(Dot(direction, direction),
              Dot(Scale(toOrigin, 2.0), direction),
              Dot(toOrigin, toOrigin) - radius * radius)
  }

  /** `(b * b) - (4 * a * c)`. */
  function Discriminant(q: Quadratic): real {
    q.b * q.b - 4.0 * q.a * q.c
  }

  /** The two candidate roots exactly as the source writes them,
      `(-b + sqrtf(disc)) / 2*a` and `(-b - sqrtf(disc)) / 2*a`, which Swift reads
      as `((-b ± sqrtf(disc)) / 2) * a`: the textbook root only when `a == 1`. */
  function Root1(q: Quadratic, s: real): (t: real)
    ensures q.a == 1.0 && s * s == Discriminant(q) ==> t * t * q.a + t * q.b + q.c == 0.0
  {
    ((-q.b + s) / 2.0) * q.a
  }

  function Root2(q: Quadratic, s: real): (t: real)
    ensures q.a == 1.0 && s * s == Discriminant(q) ==> t * t * q.a + t * q.b + q.c == 0.0
  {
    ((-q.b - s) / 2.0) * q.a
  }

  /** The sphere test: the root choice below applied to the ray's quadratic. */
  function SphereHit(center: Vector, radius: real, origin: Vector, direction: Vector, m: Libm): (r: Dist)
    ensures var q := SphereQuadratic(center, radius, origin, direction);
      Discriminant(q) < 0.0 ==> r == Inf
    ensures var q := SphereQuadratic(center, radius, origin, direction);
      var s := m.sqrt(Discriminant(q));
      r.Finite? ==> 0.0 < r.t && (r.t == Root1(q, s) || r.t == Root2(q, s))
    ensures var q := SphereQuadratic(center, radius, origin, direction);
      var s := m.sqrt(Discriminant(q));
      0.0 <= Discriminant(q) && 0.0 < Root1(q, s) && 0.0 < Root2(q, s) ==>
        r == Finite(if Root1(q, s) <= Root2(q, s) then Root1(q, s) else Root2(q, s))
    ensures var q := SphereQuadratic(center, radius, origin, direction);
      var s := m.sqrt(Discriminant(q));
      r == Inf <==> Discriminant(q) < 0.0 || (Root1(q, s) <= 0.0 && Root2(q, s) <= 0.0)
  {
    NearestRoot(SphereQuadratic(center, radius, origin, direction), m)
  }

  /** The root choice of `Sphere.intersect`: `Inf` for a negative discriminant,
      otherwise the smaller positive root, or `Inf` when neither root is
      positive. */
  function NearestRoot(q: Quadratic, m: Libm): (r: Dist)
    ensures Discriminant(q) < 0.0 ==> r == Inf
    ensures var s := m.sqrt(Discriminant(q));
      r.Finite? ==> 0.0 < r.t && (r.t == Root1(q, s) || r.t == Root2(q, s))
    ensures var s := m.sqrt(Discriminant(q));
      0.0 <= Discriminant(q) && 0.0 < Root1(q, s) && 0.0 < Root2(q, s) ==>
        r == Finite(if Root1(q, s) <= Root2(q, s) then Root1(q, s) else Root2(q, s))
    ensures var s := m.sqrt(Discriminant(q));
      r == Inf <==> Discriminant(q) < 0.0 || (Root1(q, s) <= 0.0 && Root2(q, s) <= 0.0)
  {
    var disc := Discriminant(q);
    if disc < 0.0 then Inf
    else
      var s := m.sqrt(disc);
      var t1, t2 := Root1(q, s), Root2(q, s);
      if t1 > 0.0 && t2 > 0.0 then Finite(if t1 < t2 then t1 else t2)
      else if t1 > 0.0 then Finite(t1)
      else if t2 > 0.0 then Finite(t2)
      else Inf
  }

  /** The plane test: `Inf` for a ray parallel to the plane or a crossing behind
      the origin; otherwise the parameter where the ray meets the plane. */
  function PlaneHit(point: Vector, normal: Vector, origin: Vector, direction: Vector): (r: Dist)
    ensures Dot(normal, direction) == 0.0 ==> r == Inf
    ensures r.Finite? ==> 0.0 <= r.t
    ensures r.Finite? ==> r.t * Dot(normal, direction) == Dot(point, normal) - Dot(origin, normal)
  {
    var vD := Dot(normal, direction);
    if vD == 0.0 then Inf
    else
      var t := PlaneNumerator(point, normal, origin) / vD;
      DivMul(PlaneNumerator(point, normal, origin), vD);
      PlaneNumeratorIs(point, normal, origin);
      if t < 0.0 then Inf else Finite(t)
  }

  /** `intersects(from:to:)`, dispatched on the variant. */
  function Intersects(o: Object, origin: Vector, direction: Vector, m: Libm): (r: Dist)
    ensures o.Plane? && Dot(o.normal, direction) == 0.0 ==> r == Inf
    ensures r.Finite? ==> 0.0 <= r.t
  {
    match o
    case Sphere(center, radius, _, _) => SphereHit(center, radius, origin, direction, m)
    case Plane(point, normal, _, _) => PlaneHit(point, normal, origin, direction)
  }

  /** `normal(at:)`: a plane returns its stored normal wherever it is asked; a
      sphere normalises the offset from its centre, which has no direction
      (`None`) when that offset has zero length. */
  function Normal(o: Object, position: Vector, m: Libm): (r: Option<Vector>)
    ensures o.Plane? ==> r == Some(o.normal)
    ensures o.Sphere? ==> (r.Some? <==> Magnitude(Sub(position, o.center), m) != 0.0)
    ensures o.Sphere? && r.Some? ==>
      Scale(r.value, Magnitude(Sub(position, o.center), m)) == Sub(position, o.center)
  {
    match o
    case Sphere(center, _, _, _) => TryUnit(Sub(position, center), m)
    case Plane(_, normal, _, _) => Some(normal)
  }

  /** The mirror image `d - 2 (d . n) n` before normalisation:
      `normal.scaled(by: -2 * direction.dotted(with: normal)).added(to: direction)`. */
  function MirrorRaw(direction: Vector, normal: Vector): (r: Vector)
    ensures Cross(Sub(r, direction), normal) == Zero
    ensures Dot(direction, normal) == 0.0 ==> r == direction
  {
    ScaleParallel(normal, -2.0 * Dot(direction, normal));
    ScaleByZero(normal, -2.0 * Dot(direction, normal));
    Add(Scale(normal, -2.0 * Dot(direction, normal)), direction)
  }

  /** With an exact square root, a sphere's normal at a point off its centre has
      length one, as the mirror lemmas below ask of their normal. */
  lemma SphereNormalUnit(o: Object, position: Vector, m: Libm)
    requires o.Sphere?
    ensures ExactSqrt(m) && Normal(o, position, m).Some? ==>
      Dot(Normal(o, position, m).value, Normal(o, position, m).value) == 1.0
  {
    var offset := Sub(position, o.center);
    if Magnitude(offset, m) != 0.0 {
      UnitLength(offset, m);
    }
  }

  /** `reflection(of:at:)`, the same formula for both variants: the mirror image
      of `direction` in the normal at `position`, normalised. */
  function Reflection(o: Object, direction: Vector, position: Vector, m: Libm): (r: Option<Vector>)
    ensures r.Some? <==>
      Normal(o, position, m).Some? && Magnitude(MirrorRaw(direction, Normal(o, position, m).value), m) != 0.0
    ensures r.Some? ==> var raw := MirrorRaw(direction, Normal(o, position, m).value);
      Scale(r.value, Magnitude(raw, m)) == raw
  {
    var n :- Normal(o, position, m);
    TryUnit(MirrorRaw(direction, n), m)
  }

  /** With an exact square root, a plane with a unit normal reflects every
      non-zero direction into a non-zero direction: mirroring keeps the length,
      so there is always something to normalise. */
  lemma PlaneReflects(o: Object, direction: Vector, position: Vector, m: Libm)
    requires o.Plane? && Dot(o.normal, o.normal) == 1.0 && ExactSqrt(m)
    ensures direction != Zero ==>
      Reflection(o, direction, position, m).Some? && Reflection(o, direction, position, m).value != Zero
  {
    if direction != Zero {
      var raw := MirrorRaw(direction, o.normal);
      MirrorNonZero(direction, o.normal);
      UnitNonZero(raw, m);
    }
  }

  lemma MirrorNonZero(d: Vector, n: Vector)
    requires Dot(n, n) == 1.0
    ensures d != Zero ==> MirrorRaw(d, n) != Zero
  {
    MirrorKeepsLength(d, n);
    DotSelfZero(d);
    assert Dot(Zero, Zero) == 0.0;
  }

  lemma UnitNonZero(v: Vector, m: Libm)
    requires ExactSqrt(m) && v != Zero
    ensures TryUnit(v, m).Some? && TryUnit(v, m).value != Zero
  {
    assert Magnitude(v, m) != 0.0;
    var u := Unit(v, m);
    UnitLength(v, m);
    LengthOneNonZero(u);
    assert TryUnit(v, m) == Some(u);
  }

  lemma LengthOneNonZero(u: Vector)
    requires Dot(u, u) == 1.0
    ensures u != Zero
  {
    assert Dot(Zero, Zero) == 0.0;
  }

  /** The `==` overloads: two spheres (or two planes) are equal when colour,
      reflectivity and both geometric fields are; a sphere never equals a plane. */
  function ObjectsEqual(left: Object, right: Object): (r: bool)
    ensures r <==> left == right
    ensures ShapeOf(left) != ShapeOf(right) ==> !r
  {
    match (left, right)
    case (Sphere(c1, r1, f1, p1), Sphere(c2, r2, f2, p2)) =>
      PixelEqual(p1, p2) && f1 == f2 && Equal(c1, c2) && r1 == r2
    case (Plane(q1, n1, f1, p1), Plane(q2, n2, f2, p2)) =>
      PixelEqual(p1, p2) && f1 == f2 && Equal(q1, q2) && Equal(n1, n2)
    case _ => false
  }

  /** A parameter that solves the plane equation gives a point on the plane,
      so every finite plane hit lies on the plane. */
  lemma OnPlane(point: Vector, normal: Vector, origin: Vector, direction: Vector, t: real)
    requires t * Dot(normal, direction) == Dot(point, normal) - Dot(origin, normal)
    ensures Dot(Along(origin, direction, t), normal) == Dot(point, normal)
  {
    AlongDot(origin, direction, t, normal);
  }

  /** `v0 = -(normal . origin + distance)`, where `distance` accumulates
      `-point.x * normal.x - point.y * normal.y - point.z * normal.z`. */
  function PlaneNumerator(point: Vector, normal: Vector, origin: Vector): real {
    var distance := ((0.0 - point.x * normal.x) - point.y * normal.y) - point.z * normal.z;
    -(Dot(normal, origin) + distance)
  }

  lemma PlaneNumeratorIs(point: Vector, normal: Vector, origin: Vector)
    ensures PlaneNumerator(point, normal, origin) == Dot(point, normal) - Dot(origin, normal)
  {
    DotSymmetric(normal, origin);
  }

  /** The plane test finds every crossing at or ahead of the origin: a
      non-parallel ray that meets the plane at `t >= 0` gets exactly `t`. */
  lemma PlaneHitComplete(point: Vector, normal: Vector, origin: Vector, direction: Vector, t: real)
    requires Dot(normal, direction) != 0.0 && 0.0 <= t
    requires Dot(Along(origin, direction, t), normal) == Dot(point, normal)
    ensures PlaneHit(point, normal, origin, direction) == Finite(t)
  {
    var vD, v0 := Dot(normal, direction), PlaneNumerator(point, normal, origin);
    AlongDot(origin, direction, t, normal);
    PlaneNumeratorIs(point, normal, origin);
    Quotient(v0, vD, t);
  }

  lemma Quotient(x: real, d: real, q: real)
    requires d != 0.0 && q * d == x
    ensures x / d == q
  {
  }

  /** For a unit normal, the mirror image has the opposite component along the
      normal. */
  lemma MirrorFlipsNormal(d: Vector, n: Vector)
    requires Dot(n, n) == 1.0
    ensures Dot(MirrorRaw(d, n), n) == -Dot(d, n)
  {
    var f := -2.0 * Dot(d, n);
    DotAdd(Scale(n, f), d, n);
    DotScale(n, f, n);
    Flip(Dot(MirrorRaw(d, n), n), f, Dot(n, n), Dot(d, n));
  }

  lemma Flip(along: real, f: real, nn: real, k: real)
    requires nn == 1.0 && f == -2.0 * k
    requires along == f * nn + k
    ensures along == -k
  {
  }

  /** For a unit normal, mirroring keeps the squared length. */
  lemma MirrorKeepsLength(d: Vector, n: Vector)
    requires Dot(n, n) == 1.0
    ensures Dot(MirrorRaw(d, n), MirrorRaw(d, n)) == Dot(d, d)
  {
    var f := -2.0 * Dot(d, n);
    var step := Scale(n, f);
    SumSquared(step, d);
    ScaleParallel(n, f);
    DotScale(n, f, d);
    DotSymmetric(n, d);
    Balance(Dot(Add(step, d), Add(step, d)), Dot(step, step), Dot(step, d), Dot(d, d), f, Dot(n, d), Dot(n, n));
  }

  lemma Balance(mm: real, ss: real, sd: real, dd: real, f: real, k: real, nn: real)
    requires f == -2.0 * k && nn == 1.0 && ss == f * f * nn && sd == f * k
    requires mm == ss + 2.0 * sd + dd
    ensures mm == dd
  {
  }

  lemma ScaleByZero(v: Vector, f: real)
    ensures f == 0.0 ==> Scale(v, f) == Zero
  {
  }

  /** For a unit normal, mirroring twice gives back the direction. */
  lemma MirrorInvolution(d: Vector, n: Vector)
    requires Dot(n, n) == 1.0
    ensures MirrorRaw(MirrorRaw(d, n), n) == d
  {
    MirrorFlipsNormal(d, n);
    UndoScale(n, -2.0 * Dot(d, n), d);
  }

  /** Adding `-f n` undoes adding `f n`. */
  lemma UndoScale(n: Vector, f: real, d: Vector)
    ensures Add(Scale(n, -f), Add(Scale(n, f), d)) == d
  {
  }

  /** The quadratic measures the distance to the sphere: at parameter `t` its
      value is the squared distance of the ray point from the centre less the
      squared radius. */
  lemma QuadraticIsDistance(center: Vector, radius: real, origin: Vector, direction: Vector, t: real)
    ensures var q := SphereQuadratic(center, radius, origin, direction);
      var p := Sub(Along(origin, direction, t), center);
      Dot(p, p) - radius * radius == t * t * q.a + t * q.b + q.c
  {
    var w, u := Sub(origin, center), Scale(direction, t);
    RayOffset(origin, direction, t, center);
    SumSquared(u, w);
    ScaleParallel(direction, t);
    DotScale(direction, t, w);
    DotScale(w, 2.0, direction);
    DotSymmetric(direction, w);
    Expand(Dot(Add(u, w), Add(u, w)), Dot(direction, direction), Dot(direction, w), Dot(w, w),
           radius * radius, t, SphereQuadratic(center, radius, origin, direction));
  }

  /** The ray point less the centre is the step along the ray plus the offset
      of the origin from the centre. */
  lemma RayOffset(origin: Vector, direction: Vector, t: real, center: Vector)
    ensures Sub(Along(origin, direction, t), center) == Add(Scale(direction, t), Sub(origin, center))
  {
  }

  /** The squared length of a sum. */
  lemma SumSquared(u: Vector, w: Vector)
    ensures Dot(Add(u, w), Add(u, w)) == Dot(u, u) + 2.0 * Dot(u, w) + Dot(w, w)
  {
    BinomialSquare(u.x, w.x);
    BinomialSquare(u.y, w.y);
    BinomialSquare(u.z, w.z);
  }

  lemma BinomialSquare(a: real, b: real)
    ensures (a + b) * (a + b) == a * a + 2.0 * (a * b) + b * b
  {
  }

  lemma Expand(pp: real, aa: real, ab: real, bb: real, rr: real, t: real, q: Quadratic)
    requires pp == t * t * aa + 2.0 * (t * ab) + bb
    requires q == Quadratic(aa, 2.0 * ab, bb - rr)
    ensures pp - rr == t * t * q.a + t * q.b + q.c
  {
  }

  /** For a unit direction and an exact square root, a finite sphere hit is a
      point on the sphere. */
  lemma SphereHitOnSurface(center: Vector, radius: real, origin: Vector, direction: Vector, m: Libm)
    requires ExactSqrt(m) && Dot(direction, direction) == 1.0
    ensures SphereHit(center, radius, origin, direction, m).Finite? ==>
      var p := Sub(Along(origin, direction, SphereHit(center, radius, origin, direction, m).t), center);
      Dot(p, p) == radius * radius
  {
    var q := SphereQuadratic(center, radius, origin, direction);
    HitIsRoot(q, m);
    OnSurfaceAt(center, radius, origin, direction, NearestRoot(q, m));
  }

  /** With an exact square root and a leading coefficient of one, a finite
      root choice solves the quadratic. */
  lemma HitIsRoot(q: Quadratic, m: Libm)
    requires ExactSqrt(m) && q.a == 1.0
    ensures NearestRoot(q, m).Finite? ==>
      NearestRoot(q, m).t * NearestRoot(q, m).t * q.a + NearestRoot(q, m).t * q.b + q.c == 0.0
  {
    var r := NearestRoot(q, m);
    if r.Finite? {
      ExactSquare(m, Discriminant(q));
      RootSolves(q, m.sqrt(Discriminant(q)), r.t);
    }
  }

  lemma OnSurfaceAt(center: Vector, radius: real, origin: Vector, direction: Vector, r: Dist)
    requires var q := SphereQuadratic(center, radius, origin, direction);
      r.Finite? ==> r.t * r.t * q.a + r.t * q.b + q.c == 0.0
    ensures r.Finite? ==> var p := Sub(Along(origin, direction, r.t), center); Dot(p, p) == radius * radius
  {
    if r.Finite? {
      RootOnSurface(center, radius, origin, direction, r.t);
    }
  }

  /** Every root of the sphere's quadratic is a parameter where the ray meets
      the sphere. */
  lemma RootOnSurface(center: Vector, radius: real, origin: Vector, direction: Vector, t: real)
    requires var q := SphereQuadratic(center, radius, origin, direction);
      t * t * q.a + t * q.b + q.c == 0.0
    ensures var p := Sub(Along(origin, direction, t), center);
      Dot(p, p) == radius * radius
  {
    QuadraticIsDistance(center, radius, origin, direction, t);
  }

  lemma RootSolves(q: Quadratic, s: real, t: real)
    requires q.a == 1.0 && s * s == Discriminant(q)
    requires t == Root1(q, s) || t == Root2(q, s)
    ensures t * t * q.a + t * q.b + q.c == 0.0
  {
  }

  lemma ExactSquare(m: Libm, x: real)
    requires ExactSqrt(m) && 0.0 <= x
    ensures m.sqrt(x) * m.sqrt(x) == x
  {
  }

  /** With `a != 1` the literal formula misses: a ray from the origin along
      `(0, 0, -2)`, so `a == 4`, towards the sphere of radius 3 at `(2, 1, -10)`
      crosses it at 4 and 6, but with the exact square root 8 of the
      discriminant the test answers 64, which is not a root. */
  lemma NonUnitDirectionMisses(m: Libm)
    requires m.sqrt(64.0) == 8.0
    ensures SphereHit(ExampleCenter, 3.0, Zero, ExampleDirection, m) == Finite(64.0)
    ensures var q := SphereQuadratic(ExampleCenter, 3.0, Zero, ExampleDirection);
      && 4.0 * 4.0 * q.a + 4.0 * q.b + q.c == 0.0
      && 6.0 * 6.0 * q.a + 6.0 * q.b + q.c == 0.0
      && 64.0 * 64.0 * q.a + 64.0 * q.b + q.c != 0.0
  {
    ExampleQuadratic();
    ExampleRoots();
  }

  const ExampleCenter := Vector(2.0, 1.0, -10.0)
  const ExampleDirection := Vector(0.0, 0.0, -2.0)

  lemma ExampleQuadratic()
    ensures SphereQuadratic(ExampleCenter, 3.0, Zero, ExampleDirection) == Quadratic(4.0, -40.0, 96.0)
  {
  }

  lemma ExampleRoots()
    ensures Discriminant(Quadratic(4.0, -40.0, 96.0)) == 64.0
    ensures Root1(Quadratic(4.0, -40.0, 96.0), 8.0) == 96.0
    ensures Root2(Quadratic(4.0, -40.0, 96.0), 8.0) == 64.0
  {
  }
}

=== FILE: optional.dfy ===
/** An optional value that works with `:-`: `None` marks a computation whose
    result the source leaves undefined. */
module Optional {

  datatype Option<+T> = None | Some(value: T) {

    predicate IsFailure() {
      None?
    }

    function PropagateFailure<U>(): Option<U>
      requires None?
    {
      None
    }

    function Extract(): T
      requires Some?
    {
      value
    }
  }
}

=== FILE: ppm.dfy ===
/** The pixel buffer and its binary PPM ("P6") serialisation (PPMImage.swift).
    Bytes are ints; the encoder produces only values in 0..255 for a valid image. */
module PPM {
  import opened Optional
  import opened Decimal
  import opened Sequences

  /** An RGB pixel. The source stores `UInt8` channels; here they are ints, and
      `Valid` says each lies in 0..255, so proving `Valid` for a computed pixel
      shows that the source's `UInt8(...)` conversion does not trap. */
  datatype Pixel = Pixel(r: int, g: int, b: int) {
    predicate Valid() {
      0 <= r <= 255 && 0 <= g <= 255 && 0 <= b <= 255
    }
  }

  /** `Pixel()`: every channel defaults to zero. */
  const Black := Pixel(0, 0, 0)

  /** Pixel `==` compares channel by channel, which is structural equality. */
  function PixelEqual(left: Pixel, right: Pixel): (r: bool)
    ensures r <==> left == right
  {
    left.r == right.r && left.g == right.g && left.b == right.b
  }

  /** A `PPMImage`: `data` holds `height` rows of `width` pixels each. */
  datatype Image = Image(width: nat, height: nat, maxValue: int, data: seq<seq<Pixel>>) {
    predicate WellFormed() {
      && |data| == height
      && forall i :: 0 <= i < |data| ==> |data[i]| == width
    }

    predicate Valid() {
      && WellFormed()
      && forall i, j :: 0 <= i < |data| && 0 <= j < |data[i]| ==> data[i][j].Valid()
    }
  }

  /** `PPMImage.init`: `height` rows of `width` black pixels. `None` stands for
      the trap of `Array(repeating:count:)` on a negative count; the row is
      built before the rows are repeated, so a negative width traps even when
      the height is zero. */
  function NewImage(width: int, height: int, maxValue: int): (r: Option<Image>)
    ensures r.None? <==> width < 0 || height < 0
    ensures r.Some? ==> r.value.Valid()
    ensures r.Some? ==> r.value.width == width && r.value.height == height && r.value.maxValue == maxValue
    ensures r.Some? ==> forall i, j :: 0 <= i < height && 0 <= j < width ==> r.value.data[i][j] == Black
  {
    if width < 0 || height < 0 then None
    else Some(Image(width, height, maxValue, seq(height, _ => seq(width, _ => Black))))
  }

  /** The magic number `"P6\n"` of a binary PPM file. */
  const Magic: seq<int> := [80, 54, Newline]

  /** The ASCII header `"P6\n<width>\n<height>\n<maxValue>\n"`. */
  function Header(width: int, height: int, maxValue: int): (h: seq<int>)
    ensures 3 <= |h| && h[..3] == Magic
  {
    Magic + (Field(width) + (Field(height) + Field(maxValue)))
  }

  /** One header line: a number in decimal and a newline. */
  function Field(v: int): (f: seq<int>)
    ensures 2 <= |f| && f[|f| - 1] == Newline
  {
    Text(v) + [Newline]
  }

  /** The header is plain ASCII. */
  lemma HeaderAscii(width: int, height: int, maxValue: int)
    ensures Ascii(Header(width, height, maxValue))
  {
    FieldAscii(width);
    FieldAscii(height);
    FieldAscii(maxValue);
    AsciiAppend(Field(height), Field(maxValue));
    AsciiAppend(Field(width), Field(height) + Field(maxValue));
    AsciiAppend(Magic, Field(width) + (Field(height) + Field(maxValue)));
  }

  lemma FieldAscii(v: int)
    ensures Ascii(Field(v))
  {
    TextAscii(v);
    AsciiAppend(Text(v), [Newline]);
  }

  /** The three channel bytes of a pixel, red first. */
  function PixelBytes(p: Pixel): seq<int> {
    [p.r, p.g, p.b]
  }

  /** Channel `k` of `p`: 0 is red, 1 green, 2 blue. */
  function Channel(p: Pixel, k: int): int
    requires 0 <= k < 3
  {
    if k == 0 then p.r else if k == 1 then p.g else p.b
  }

  /** The bytes of one row, pixel after pixel. */
  function RowBytes(row: seq<Pixel>): (bs: seq<int>)
    ensures |bs| == 3 * |row|
  {
    if |row| == 0 then [] else PixelBytes(row[0]) + RowBytes(row[1..])
  }

  /** Byte `3 * j + k` of a row is channel `k` of its pixel `j`. */
  lemma {:induction false} RowBytesIndex(row: seq<Pixel>, j: nat, k: nat)
    requires j < |row| && k < 3
    ensures RowBytes(row)[3 * j + k] == Channel(row[j], k)
    decreases |row|
  {
    if j > 0 {
      RowBytesIndex(row[1..], j - 1, k);
    }
  }

  /** The bytes of all rows, first row first. */
  function Payload(rows: seq<seq<Pixel>>): seq<int> {
    if |rows| == 0 then [] else RowBytes(rows[0]) + Payload(rows[1..])
  }

  /** The bytes `write(to:)` hands to the file: the header, then the pixels in
      row-major order. */
  function Encode(img: Image): (bs: seq<int>)
    requires img.WellFormed()
    ensures |bs| == |Header(img.width, img.height, img.maxValue)| + PayloadSize(img.width, img.height)
    ensures bs[..|Header(img.width, img.height, img.maxValue)|] == Header(img.width, img.height, img.maxValue)
  {
    PayloadLength(img.data, img.width);
    Header(img.width, img.height, img.maxValue) + Payload(img.data)
  }

  /** Splits `bs` into `width` pixels. */
  function Row(bs: seq<int>, width: nat): (row: seq<Pixel>)
    requires |bs| == 3 * width
    ensures |row| == width
  {
    seq(width, j requires 0 <= j < width => Pixel(bs[3 * j], bs[3 * j + 1], bs[3 * j + 2]))
  }

  /** The number of pixel bytes in `height` rows of `width` pixels. */
  function PayloadSize(width: nat, height: nat): nat {
    if height == 0 then 0 else 3 * width + PayloadSize(width, height - 1)
  }

  /** The position of channel `k` of pixel `[i][j]` in the pixel bytes. */
  function Offset(width: nat, i: nat, j: nat, k: nat): nat {
    if i == 0 then 3 * j + k else 3 * width + Offset(width, i - 1, j, k)
  }

  /** `height` rows of `width` pixels take `3 * width * height` bytes. */
  lemma {:induction false} PayloadSizeIs(width: nat, height: nat)
    ensures PayloadSize(width, height) == 3 * width * height
  {
    if height > 0 {
      PayloadSizeIs(width, height - 1);
    }
  }

  /** Pixel `[i][j]` starts `3 * (i * width + j)` bytes in: row-major order. */
  lemma {:induction false} OffsetIs(width: nat, i: nat, j: nat, k: nat)
    ensures Offset(width, i, j, k) == 3 * (i * width + j) + k
  {
    if i > 0 {
      OffsetIs(width, i - 1, j, k);
    }
  }

  /** Splits `bs` into `height` rows of `width` pixels. */
  function Rows(bs: seq<int>, width: nat, height: nat): (rows: seq<seq<Pixel>>)
    requires |bs| == PayloadSize(width, height)
    ensures |rows| == height
    ensures forall i :: 0 <= i < height ==> |rows[i]| == width
  {
    if height == 0 then []
    else [Row(bs[..3 * width], width)] + Rows(bs[3 * width..], width, height - 1)
  }

  /** Reads a P6 byte stream back: the magic number, the three header fields,
      then exactly `3 * width * height` pixel bytes. */
  function Decode(bs: seq<int>): (r: Option<Image>)
    ensures r.Some? ==> r.value.WellFormed()
  {
    if |bs| < 3 || bs[..3] != Magic then None
    else
      var w :- ParseNatLine(bs[3..]);
      var h :- ParseNatLine(w.1);
      var m :- ParseIntLine(h.1);
      if |m.1| != PayloadSize(w.0, h.0) then None
      else Some(Image(w.0, h.0, m.0, Rows(m.1, w.0, h.0)))
  }

  lemma {:induction false} PayloadLength(rows: seq<seq<Pixel>>, width: nat)
    requires forall i :: 0 <= i < |rows| ==> |rows[i]| == width
    ensures |Payload(rows)| == PayloadSize(width, |rows|)
    decreases |rows|
  {
    if |rows| > 0 {
      PayloadLength(rows[1..], width);
    }
  }

  /** Byte `Offset(width, i, j, k)` of the payload is channel `k` of pixel `[i][j]`. */
  lemma {:induction false} PayloadIndex(rows: seq<seq<Pixel>>, width: nat, i: nat, j: nat, k: nat)
    requires forall i' :: 0 <= i' < |rows| ==> |rows[i']| == width
    requires i < |rows| && j < width && k < 3
    ensures Offset(width, i, j, k) < |Payload(rows)|
    ensures Payload(rows)[Offset(width, i, j, k)] == Channel(rows[i][j], k)
    decreases |rows|
  {
    PayloadLength(rows, width);
    PayloadLength(rows[1..], width);
    if i > 0 {
      PayloadIndex(rows[1..], width, i - 1, j, k);
    } else {
      RowBytesIndex(rows[0], j, k);
    }
  }

  /** The encoder's byte layout: after the header, byte `3 * (i * width + j) + k`
      is channel `k` of pixel `[i][j]`. */
  lemma EncodeIndex(img: Image, i: nat, j: nat, k: nat, n: nat)
    requires img.WellFormed()
    requires i < img.height && j < img.width && k < 3
    requires n == |Header(img.width, img.height, img.maxValue)| + 3 * (i * img.width + j) + k
    ensures n < |Encode(img)| && Encode(img)[n] == Channel(img.data[i][j], k)
  {
    var hd, p := Header(img.width, img.height, img.maxValue), Payload(img.data);
    var off := Offset(img.width, i, j, k);
    PayloadIndex(img.data, img.width, i, j, k);
    OffsetIs(img.width, i, j, k);
    assert Encode(img) == hd + p;
    assert (hd + p)[|hd| + off] == p[off];
  }

  /** The header depends on the dimensions only, never on the pixels. */
  lemma EncodeHeaderIndependent(img: Image, data: seq<seq<Pixel>>)
    requires img.WellFormed()
    requires img.(data := data).WellFormed()
    ensures Encode(img)[..|Header(img.width, img.height, img.maxValue)|]
         == Encode(img.(data := data))[..|Header(img.width, img.height, img.maxValue)|]
  {
  }

  /** Every byte of a valid image's encoding fits in a byte. */
  lemma EncodeBytes(img: Image)
    requires img.Valid()
    ensures forall n :: 0 <= n < |Encode(img)| ==> 0 <= Encode(img)[n] <= 255
  {
    HeaderAscii(img.width, img.height, img.maxValue);
    PayloadBytes(img.data);
  }

  lemma {:induction false} RowBytesInRange(row: seq<Pixel>)
    requires forall j :: 0 <= j < |row| ==> row[j].Valid()
    ensures forall n :: 0 <= n < |RowBytes(row)| ==> 0 <= RowBytes(row)[n] <= 255
    decreases |row|
  {
    if |row| > 0 {
      assert row[0].Valid();
      RowBytesInRange(row[1..]);
    }
  }

  lemma {:induction false} PayloadBytes(rows: seq<seq<Pixel>>)
    requires forall i, j :: 0 <= i < |rows| && 0 <= j < |rows[i]| ==> rows[i][j].Valid()
    ensures forall n :: 0 <= n < |Payload(rows)| ==> 0 <= Payload(rows)[n] <= 255
    decreases |rows|
  {
    if |rows| > 0 {
      RowBytesInRange(rows[0]);
      PayloadBytes(rows[1..]);
    }
  }

  lemma {:induction false} RowRoundTrip(row: seq<Pixel>)
    ensures Row(RowBytes(row), |row|) == row
  {
    var bs := RowBytes(row);
    forall j | 0 <= j < |row|
      ensures Row(bs, |row|)[j] == row[j]
    {
      RowBytesIndex(row, j, 0);
      RowBytesIndex(row, j, 1);
      RowBytesIndex(row, j, 2);
    }
  }

  lemma RowsCons(head: seq<int>, tail: seq<int>, width: nat, height: nat)
    requires |head| == 3 * width && |tail| == PayloadSize(width, height)
    ensures |head + tail| == PayloadSize(width, height + 1)
    ensures Rows(head + tail, width, height + 1) == [Row(head, width)] + Rows(tail, width, height)
  {
    assert (head + tail)[..3 * width] == head;
    assert (head + tail)[3 * width..] == tail;
  }

  lemma {:induction false} RowsRoundTrip(rows: seq<seq<Pixel>>, width: nat)
    requires forall i :: 0 <= i < |rows| ==> |rows[i]| == width
    ensures |Payload(rows)| == PayloadSize(width, |rows|)
    ensures Rows(Payload(rows), width, |rows|) == rows
    decreases |rows|
  {
    PayloadLength(rows, width);
    if |rows| > 0 {
      RowsRoundTrip(rows[1..], width);
      RowsRoundTripStep(rows, width);
    }
  }

  /** One row of `RowsRoundTrip`: the first row's bytes come back as the first
      row, given that the remaining rows do. */
  lemma RowsRoundTripStep(rows: seq<seq<Pixel>>, width: nat)
    requires 0 < |rows|
    requires forall i :: 0 <= i < |rows| ==> |rows[i]| == width
    requires |Payload(rows[1..])| == PayloadSize(width, |rows| - 1)
    requires Rows(Payload(rows[1..]), width, |rows| - 1) == rows[1..]
    ensures |Payload(rows)| == PayloadSize(width, |rows|)
    ensures Rows(Payload(rows), width, |rows|) == rows
  {
    RowRoundTrip(rows[0]);
    RowsCons(RowBytes(rows[0]), Payload(rows[1..]), width, |rows| - 1);
    HeadTail(rows);
  }

  /** Decoding the encoder's bytes gives back the image: the dimensions, the
      maximum value and every pixel. */
  lemma DecodeEncode(img: Image)
    requires img.WellFormed()
    ensures Decode(Encode(img)) == Some(img)
  {
    var payload := Payload(img.data);
    var afterHeight := Field(img.maxValue) + payload;
    var afterWidth := Field(img.height) + afterHeight;
    EncodeSplit(img);
    FieldNatRoundTrip(img.width, afterWidth);
    FieldNatRoundTrip(img.height, afterHeight);
    FieldIntRoundTrip(img.maxValue, payload);
    RowsRoundTrip(img.data, img.width);
  }

  /** The encoding is the magic number followed by the three header lines and
      the pixel bytes. */
  lemma EncodeSplit(img: Image)
    requires img.WellFormed()
    ensures Encode(img)[..3] == Magic
    ensures Encode(img)[3..]
         == Field(img.width) + (Field(img.height) + (Field(img.maxValue) + Payload(img.data)))
  {
    var a, b, c, p := Field(img.width), Field(img.height), Field(img.maxValue), Payload(img.data);
    Associative(Magic, a + (b + c), p);
    Associative(a, b + c, p);
    Associative(b, c, p);
    SplitAt(Magic, (a + (b + c)) + p);
  }

  lemma FieldNatRoundTrip(n: nat, rest: seq<int>)
    ensures ParseNatLine(Field(n) + rest) == Some((n, rest))
  {
    NatLineRoundTrip(n, rest);
  }

  lemma FieldIntRoundTrip(i: int, rest: seq<int>)
    ensures ParseIntLine(Field(i) + rest) == Some((i, rest))
  {
    IntLineRoundTrip(i, rest);
  }

  /** `write(to:)` without the file: the header followed by a row-major loop that
      appends the three channels of each pixel. */
  method WriteBytes(img: Image) returns (bytes: seq<int>)
    requires img.WellFormed()
    ensures bytes == Encode(img)
  {
    bytes := Header(img.width, img.height, img.maxValue);
    ghost var header := bytes;
    for i := 0 to img.height
      invariant bytes == header + Payload(img.data[..i])
    {
      bytes := AppendRow(bytes, img.data[i]);
      Associative(header, Payload(img.data[..i]), RowBytes(img.data[i]));
      PayloadSnoc(img.data[..i], img.data[i]);
      PrefixSnoc(img.data, i);
    }
    PrefixAll(img.data);
  }

  /** The inner loop of `write(to:)`: appends the red, green and blue byte of
      each pixel of `row`, left to right. */
  method AppendRow(bytes: seq<int>, row: seq<Pixel>) returns (out: seq<int>)
    ensures out == bytes + RowBytes(row)
  {
    out := bytes;
    for j := 0 to |row|
      invariant out == bytes + RowBytes(row[..j])
    {
      out := out + [row[j].r];
      out := out + [row[j].g];
      out := out + [row[j].b];
      RowBytesSnoc(row[..j], row[j]);
      PrefixSnoc(row, j);
    }
    PrefixAll(row);
  }

  lemma {:induction false} RowBytesSnoc(row: seq<Pixel>, p: Pixel)
    ensures RowBytes(row + [p]) == RowBytes(row) + PixelBytes(p)
    decreases |row|
  {
    if |row| > 0 {
      assert (row + [p])[1..] == row[1..] + [p];
      RowBytesSnoc(row[1..], p);
    }
  }

  lemma {:induction false} PayloadSnoc(rows: seq<seq<Pixel>>, row: seq<Pixel>)
    ensures Payload(rows + [row]) == Payload(rows) + RowBytes(row)
    decreases |rows|
  {
    if |rows| > 0 {
      assert (rows + [row])[1..] == rows[1..] + [row];
      PayloadSnoc(rows[1..], row);
    }
  }
}

=== FILE: raycast.dfy ===
/** Ray casting (`shoot` in Raytrace.swift): the nearest object along a ray,
    found by a linear scan in list order. */
module Raycast {
  import opened Optional
  import opened MathLib
  import opened Vectors
  import opened Distances
  import opened PPM
  import opened Objects

  /** A point light source: where it is and the colour it shines. */
  datatype PointLight = PointLight(position: Vector, color: Pixel)

  /** What the renderer draws: the objects and the lights. The source keeps the
      objects in a global; here they are passed explicitly. */
  datatype Scene = Scene(objects: seq<Object>, lights: seq<PointLight>)
  {
    predicate Valid() {
      && (forall k :: 0 <= k < |objects| ==> objects[k].Valid())
      && (forall k :: 0 <= k < |lights| ==> lights[k].color.Valid())
    }
  }

  /** The pair `shoot` returns: the object hit, if any, and the biased distance. */
  datatype Hit = Hit(obj: Option<Object>, distance: Dist)

  /** Subtracted from every distance so that the hit point is not slightly
      inside the surface. */
  const Bias: real := 0.00001

  /** Entry `k` is the first of the smallest finite entries: nothing is nearer,
      and every entry before it is strictly farther. */
  predicate FirstNearest(ds: seq<Dist>, k: nat) {
    && k < |ds|
    && ds[k].Finite?
    && (forall j :: 0 <= j < |ds| ==> !Less(ds[j], ds[k]))
    && (forall j :: 0 <= j < k ==> Less(ds[k], ds[j]))
  }

  /** The scan `if temp < distance { distance = temp; objectHit = object }`
      over `ds`, from `distance = .infinity`: the index of the entry kept, if
      any, and the distance kept. */
  function Scan(ds: seq<Dist>): (r: (Option<nat>, Dist))
    ensures r.0.None? <==> forall k :: 0 <= k < |ds| ==> ds[k] == Inf
    ensures r.0.None? ==> r.1 == Inf
    ensures r.0.Some? ==> FirstNearest(ds, r.0.value) && r.1 == ds[r.0.value]
  {
    if |ds| == 0 then (None, Inf)
    else
      var prefix, last := ds[..|ds| - 1], ds[|ds| - 1];
      var kept := Scan(prefix);
      if Less(last, kept.1) then (Some(|ds| - 1), last) else kept
  }

  /** There is at most one first nearest entry. */
  lemma FirstNearestUnique(ds: seq<Dist>, k1: nat, k2: nat)
    requires FirstNearest(ds, k1) && FirstNearest(ds, k2)
    ensures k1 == k2
  {
  }

  /** The distance from `origin` along `direction` to each object, in list
      order: never negative, and a miss for every plane the ray runs parallel to. */
  function Intersections(objs: seq<Object>, origin: Vector, direction: Vector, m: Libm): (ds: seq<Dist>)
    ensures |ds| == |objs|
    ensures forall k :: 0 <= k < |objs| ==> ds[k] == Intersects(objs[k], origin, direction, m)
    ensures forall k :: 0 <= k < |ds| ==> ds[k].Inf? || 0.0 <= ds[k].t
    ensures forall k :: 0 <= k < |objs| && objs[k].Plane? && Dot(objs[k].normal, direction) == 0.0 ==> ds[k] == Inf
  {
    seq(|objs|, k requires 0 <= k < |objs| => Intersects(objs[k], origin, direction, m))
  }

  /** Each object's distance depends on that object alone, so the distances of
      two lists joined are the two lists' distances joined. */
  lemma IntersectionsAppend(a: seq<Object>, b: seq<Object>, origin: Vector, direction: Vector, m: Libm)
    ensures Intersections(a + b, origin, direction, m)
         == Intersections(a, origin, direction, m) + Intersections(b, origin, direction, m)
  {
    var joined := Intersections(a + b, origin, direction, m);
    var parts := Intersections(a, origin, direction, m) + Intersections(b, origin, direction, m);
    assert |joined| == |parts|;
    forall k | 0 <= k < |joined|
      ensures joined[k] == parts[k]
    {
      if k < |a| {
        assert (a + b)[k] == a[k];
      } else {
        assert (a + b)[k] == b[k - |a|];
      }
    }
  }

  /** `shoot(from:towards:checking:)`: no object and an infinite distance
      exactly when every object is missed; otherwise the first object in list
      order at the smallest distance, with that distance less the bias. */
  function Shoot(objs: seq<Object>, origin: Vector, direction: Vector, m: Libm): (r: Hit)
    ensures r.obj.None? <==> r.distance.Inf?
    ensures r.obj.None? <==> forall k :: 0 <= k < |objs| ==> Intersects(objs[k], origin, direction, m) == Inf
    ensures r.obj.Some? ==>
      exists k: nat :: (&& FirstNearest(Intersections(objs, origin, direction, m), k)
                   && objs[k] == r.obj.value
                   && Intersects(objs[k], origin, direction, m) == Finite(r.distance.t + Bias))
  {
    var ds := Intersections(objs, origin, direction, m);
    var (index, nearest) := Scan(ds);
    Hit(if index.Some? then Some(objs[index.value]) else None, Lower(nearest, Bias))
  }

  /** The object `Shoot` reports is one of the scene's objects. */
  lemma ShootFromScene(objs: seq<Object>, origin: Vector, direction: Vector, m: Libm)
    ensures var r := Shoot(objs, origin, direction, m);
      r.obj.Some? ==> r.obj.value in objs
  {
  }

  /** The loop of `shoot` as the source writes it. */
  method ShootLoop(objs: seq<Object>, origin: Vector, direction: Vector, m: Libm) returns (hit: Option<Object>, distance: Dist)
    ensures Hit(hit, distance) == Shoot(objs, origin, direction, m)
  {
    ghost var ds := Intersections(objs, origin, direction, m);
    distance := Inf;
    hit := None;
    ghost var index: Option<nat> := None;
    for k := 0 to |objs|
      invariant Scan(ds[..k]) == (index, distance)
      invariant hit == if index.Some? then Some(objs[index.value]) else None
    {
      var temp := Intersects(objs[k], origin, direction, m);
      assert ds[..k + 1][..k] == ds[..k];
      if Less(temp, distance) {
        distance := temp;
        hit := Some(objs[k]);
        index := Some(k);
      }
    }
    assert ds[..|objs|] == ds;
    distance := Lower(distance, Bias);
  }
}

=== FILE: seqs.dfy ===
/** Small facts about sequences, each proved once and used by name. */
module Sequences {

  lemma HeadTail<T>(s: seq<T>)
    requires 0 < |s|
    ensures [s[0]] + s[1..] == s
  {
  }

  lemma Associative<T>(a: seq<T>, b: seq<T>, c: seq<T>)
    ensures (a + b) + c == a + (b + c)
  {
  }

  lemma SplitAt<T>(a: seq<T>, b: seq<T>)
    ensures (a + b)[..|a|] == a && (a + b)[|a|..] == b
  {
  }

  lemma PrefixSnoc<T>(s: seq<T>, i: nat)
    requires i < |s|
    ensures s[..i + 1] == s[..i] + [s[i]]
  {
  }

  lemma PrefixAll<T>(s: seq<T>)
    ensures s[..|s|] == s
  {
  }
}

=== FILE: shading.dfy ===
/** Shading (`shade` and `directShade` in Raytrace.swift): the colour seen at
    a surface point, from mirror reflections followed recursively, the lights
    that reach the point, and an ambient boost, all in saturating byte
    arithmetic. */
module Shading {
  import opened Optional
  import opened MathLib
  import opened Vectors
  import opened Distances
  import opened PPM
  import opened Objects
  import opened Raycast

  /** Reflections are followed at most this many levels deep. */
  const MaxRecursion: int := 7
  const DiffuseCoefficient: real := 0.7
  const SpecularCoefficient: real := 0.3
  const AmbientCoefficient: real := 0.15
  const SpecularSpread: real := 15.0
  /** How close the shadow ray's hit must be to the light distance (`fabs(...) < 0.1`). */
  const LightTolerance: real := 0.1

  function Min(a: int, b: int): int {
    if a < b then a else b
  }

  function Max(a: int, b: int): int {
    if a < b then b else a
  }

  function Abs(x: real): real {
    if x < 0.0 then -x else x
  }

  /** `Int(x)` and `UInt8(x)` of a `Float`: the fraction is dropped, rounding
      towards zero. */
  function Truncate(x: real): (r: int)
    ensures 0.0 <= x ==> 0 <= r && r as real <= x < r as real + 1.0
    ensures x < 0.0 ==> r <= 0 && r as real - 1.0 < x <= r as real
  {
    if x < 0.0 then -((-x).Floor) else x.Floor
  }

  /** `min(255, max(0, v))`: the nearest byte value. */
  function Saturate(v: int): (r: int)
    ensures 0 <= r <= 255
    ensures 0 <= v <= 255 ==> r == v
    ensures v < 0 ==> r == 0
    ensures 255 < v ==> r == 255
  {
    Min(255, Max(0, v))
  }

  /** The clamp at the end of `directShade`: `if v > 255 { 255 } else if v < 0 { 0 }`.
      It agrees with the `min`/`max` form `shade` uses. */
  function ClampChannel(v: int): (r: int)
    ensures r == Saturate(v)
  {
    if v > 255 then 255 else if v < 0 then 0 else v
  }

  /** `UInt8(Float(c) * reflectivity)`: a channel dimmed by a reflectivity in
      [0, 1] stays a byte no larger than before, is kept by reflectivity 1 and
      cleared by reflectivity 0. */
  function Attenuate(c: int, reflectivity: real): (r: int)
    requires 0 <= c <= 255 && 0.0 <= reflectivity <= 1.0
    ensures 0 <= r <= c
    ensures reflectivity == 1.0 ==> r == c
    ensures reflectivity == 0.0 ==> r == 0
  {
    ScaleDown(c as real, reflectivity);
    Truncate(Product(c as real, reflectivity))
  }

  lemma ScaleDown(c: real, f: real)
    requires 0.0 <= c && 0.0 <= f <= 1.0
    ensures 0.0 <= Product(c, f) <= c
    ensures f == 1.0 ==> Product(c, f) == c
    ensures f == 0.0 ==> Product(c, f) == 0.0
  {
    assert c - Product(c, f) == Product(c, 1.0 - f);
  }

  function AttenuatePixel(p: Pixel, reflectivity: real): (r: Pixel)
    requires p.Valid() && 0.0 <= reflectivity <= 1.0
    ensures r.Valid()
    ensures r.r <= p.r && r.g <= p.g && r.b <= p.b
    ensures reflectivity == 0.0 ==> r == Black
  {
    Pixel(Attenuate(p.r, reflectivity), Attenuate(p.g, reflectivity), Attenuate(p.b, reflectivity))
  }

  /** The ambient boost `min(255, max(0, c + Int(Float(c) * 0.15)))`: never
      darker, still a byte, and black stays black. */
  function Boost(c: int): (r: int)
    requires 0 <= c <= 255
    ensures c <= r <= 255
    ensures c == 0 <==> r == 0
  {
    Saturate(c + Truncate(c as real * AmbientCoefficient))
  }

  function BoostPixel(p: Pixel): (r: Pixel)
    requires p.Valid()
    ensures r.Valid()
    ensures p.r <= r.r && p.g <= r.g && p.b <= r.b
    ensures r == Black <==> p == Black
  {
    Pixel(Boost(p.r), Boost(p.g), Boost(p.b))
  }

  /** The per-light accumulation: each channel is the saturated sum, so it
      stays a byte, never decreases, and is the plain sum when that fits. */
  function AddPixels(p: Pixel, q: Pixel): (r: Pixel)
    requires p.Valid() && q.Valid()
    ensures r.Valid()
    ensures p.r <= r.r && p.g <= r.g && p.b <= r.b
    ensures q.r <= r.r && q.g <= r.g && q.b <= r.b
    ensures p.r + q.r <= 255 ==> r.r == p.r + q.r
    ensures p.g + q.g <= 255 ==> r.g == p.g + q.g
    ensures p.b + q.b <= 255 ==> r.b == p.b + q.b
    ensures q == Black ==> r == p
  {
    Pixel(Saturate(p.r + q.r), Saturate(p.g + q.g), Saturate(p.b + q.b))
  }

  /** The colour as fractions of 255, one per component. */
  function Fraction(p: Pixel): Vector {
    Vector(p.r as real / 255.0, p.g as real / 255.0, p.b as real / 255.0)
  }

  /** `decimalLightColor * decimalColor * -(from . normal)`, component-wise. */
  function Diffuse(light: Vector, color: Vector, cosine: real): Vector {
    Vector(light.x * color.x * cosine, light.y * color.y * cosine, light.z * color.z * cosine)
  }

  /** `decimalLightColor * powf(reflected . view, 15)`, component-wise. */
  function Specular(light: Vector, highlight: real): Vector {
    Vector(light.x * highlight, light.y * highlight, light.z * highlight)
  }

  /** `Int(x * 255)` clamped to a byte. */
  function ToChannel(x: real): (r: int)
    ensures 0 <= r <= 255
  {
    ClampChannel(Truncate(x * 255.0))
  }

  /** `directShade(object:at:towards:lit:color:)`: the diffuse and specular
      light of colour `light` arriving along `from`, as a pixel. Each channel is
      clamped to a byte. `None` when the surface normal or the mirror image of
      `from` cannot be normalised (the source divides by a zero length there). */
  function DirectShade(o: Object, position: Vector, direction: Vector, from: Vector, light: Pixel, m: Libm): (r: Option<Pixel>)
    ensures r.Some? <==> Normal(o, position, m).Some? && Reflection(o, from, position, m).Some?
    ensures r.Some? ==> r.value.Valid()
  {
    var normal :- Normal(o, position, m);
    var reflected :- Reflection(o, from, position, m);
    var view := Scale(direction, -1.0);
    var decimalLight := Fraction(light);
    var diffuse := Diffuse(decimalLight, Fraction(o.color), -Dot(from, normal));
    var specular := Specular(decimalLight, m.pow(Dot(reflected, view), SpecularSpread));
    var illumination := Add(Scale(diffuse, DiffuseCoefficient), Scale(specular, SpecularCoefficient));
    Some(Pixel(ToChannel(illumination.x), ToChannel(illumination.y), ToChannel(illumination.z)))
  }

  /** A black light adds nothing: whatever the geometry, `directShade` of a
      black light is black. */
  lemma DirectShadeBlack(o: Object, position: Vector, direction: Vector, from: Vector, m: Libm)
    ensures var r := DirectShade(o, position, direction, from, Black, m);
      r.Some? ==> r.value == Black
  {
    var r := DirectShade(o, position, direction, from, Black, m);
    if r.Some? {
      var normal := Normal(o, position, m).value;
      var reflected := Reflection(o, from, position, m).value;
      var view := Scale(direction, -1.0);
      DiffuseDark(Fraction(o.color), -Dot(from, normal));
      SpecularDark(m.pow(Dot(reflected, view), SpecularSpread));
    }
  }

  lemma DiffuseDark(color: Vector, cosine: real)
    ensures Diffuse(Zero, color, cosine) == Zero
  {
  }

  lemma SpecularDark(highlight: real)
    ensures Specular(Zero, highlight) == Zero
  {
  }

  /** The shadow test: the ray from the light hits the shaded object itself
      (same variant, equal fields) at about the light's distance. */
  predicate Contributes(hit: Hit, obj: Object, lightDistance: real): (r: bool)
    ensures r <==> (hit.obj == Some(obj) && hit.distance.Finite? &&
                    lightDistance - LightTolerance < hit.distance.t < lightDistance + LightTolerance)
  {
    && hit.obj.Some?
    && ObjectsEqual(hit.obj.value, obj)
    && hit.distance.Finite?
    && Abs(hit.distance.t - lightDistance) < LightTolerance
  }

  /** One pass of the lights loop: a light adds its `directShade` to the colour
      only when it passes the shadow test; otherwise the colour is unchanged. */
  function LightStep(scene: Scene, m: Libm, obj: Object, position: Vector, direction: Vector,
                     light: PointLight, color: Pixel): (r: Option<Pixel>)
    requires color.Valid() && light.color.Valid()
    ensures r.Some? ==> r.value.Valid()
    ensures r.Some? ==> color.r <= r.value.r && color.g <= r.value.g && color.b <= r.value.b
    ensures var toPoint := Sub(position, light.position);
      var lightDirection := TryUnit(toPoint, m);
      lightDirection.Some? &&
      !Contributes(Shoot(scene.objects, light.position, lightDirection.value, m), obj, Magnitude(toPoint, m))
      ==> r == Some(color)
    ensures TryUnit(Sub(position, light.position), m).None? ==> r.None?
  {
    var toPoint := Sub(position, light.position);
    var lightDistance := Magnitude(toPoint, m);
    var lightDirection :- TryUnit(toPoint, m);
    var hit := Shoot(scene.objects, light.position, lightDirection, m);
    if Contributes(hit, obj, lightDistance) then
      var lightPixel :- DirectShade(obj, position, direction, lightDirection, light.color, m);
      Some(AddPixels(color, lightPixel))
    else
      Some(color)
  }

  /** `light` reaches the surface point and contributes `p`: the direction from
      the light can be normalised, the shadow ray passes the test, and
      `directShade` gives `p`. */
  predicate LitBy(scene: Scene, m: Libm, obj: Object, position: Vector, direction: Vector,
                  light: PointLight, p: Pixel)
  {
    var toPoint := Sub(position, light.position);
    var lightDirection := TryUnit(toPoint, m);
    && lightDirection.Some?
    && Contributes(Shoot(scene.objects, light.position, lightDirection.value, m), obj, Magnitude(toPoint, m))
    && DirectShade(obj, position, direction, lightDirection.value, light.color, m) == Some(p)
  }

  /** A light that reaches the point adds its contribution to the colour. */
  lemma StepLit(scene: Scene, m: Libm, obj: Object, position: Vector, direction: Vector,
                light: PointLight, color: Pixel, p: Pixel)
    requires color.Valid() && light.color.Valid()
    requires LitBy(scene, m, obj, position, direction, light, p)
    ensures p.Valid()
    ensures LightStep(scene, m, obj, position, direction, light, color) == Some(AddPixels(color, p))
  {
  }

  /** The lights loop, in list order, from the colour `color`: the result is a
      pixel no darker than `color` in any channel. */
  function Illuminate(scene: Scene, m: Libm, obj: Object, position: Vector, direction: Vector,
                      lights: seq<PointLight>, color: Pixel): (r: Option<Pixel>)
    requires color.Valid()
    requires forall k :: 0 <= k < |lights| ==> lights[k].color.Valid()
    ensures r.Some? ==> r.value.Valid()
    ensures r.Some? ==> color.r <= r.value.r && color.g <= r.value.g && color.b <= r.value.b
    decreases |lights|
  {
    if |lights| == 0 then Some(color)
    else
      var next :- LightStep(scene, m, obj, position, direction, lights[0], color);
      Illuminate(scene, m, obj, position, direction, lights[1..], next)
  }

  /** The lights loop over `lights` is the loop over its first `k` lights
      followed by the loop over the rest, started from the colour the first part
      leaves. */
  lemma {:induction false} IlluminateSplit(scene: Scene, m: Libm, obj: Object, position: Vector, direction: Vector,
                                           lights: seq<PointLight>, color: Pixel, k: nat)
    requires color.Valid()
    requires forall i :: 0 <= i < |lights| ==> lights[i].color.Valid()
    requires k <= |lights|
    ensures var r := Illuminate(scene, m, obj, position, direction, lights, color);
      var front := Illuminate(scene, m, obj, position, direction, lights[..k], color);
      r.Some? ==> front.Some? && r == Illuminate(scene, m, obj, position, direction, lights[k..], front.value)
    decreases k
  {
    if k == 0 {
      assert lights[k..] == lights;
    } else {
      var next := LightStep(scene, m, obj, position, direction, lights[0], color);
      if next.Some? {
        var rest := lights[1..];
        assert forall i :: 0 <= i < |rest| ==> rest[i].color.Valid();
        IlluminateSplit(scene, m, obj, position, direction, rest, next.value, k - 1);
        assert lights[..k][0] == lights[0];
        assert lights[..k][1..] == rest[..k - 1];
        assert rest[k - 1..] == lights[k..];
      }
    }
  }

  /** Whatever the other lights do, the colour after the lights loop is no
      darker than the contribution of any light that reaches the point. */
  lemma IlluminateLit(scene: Scene, m: Libm, obj: Object, position: Vector, direction: Vector,
                      lights: seq<PointLight>, color: Pixel, k: nat, p: Pixel)
    requires color.Valid()
    requires forall i :: 0 <= i < |lights| ==> lights[i].color.Valid()
    requires k < |lights| && LitBy(scene, m, obj, position, direction, lights[k], p)
    ensures var r := Illuminate(scene, m, obj, position, direction, lights, color);
      r.Some? ==> p.r <= r.value.r && p.g <= r.value.g && p.b <= r.value.b
  {
    IlluminateSplit(scene, m, obj, position, direction, lights, color, k);
    var front := Illuminate(scene, m, obj, position, direction, lights[..k], color);
    if front.Some? {
      IlluminateLitAt(scene, m, obj, position, direction, lights, front.value, k, p);
    }
  }

  /** The loop started at light `k`, which reaches the point, ends no darker
      than that light's contribution. */
  lemma IlluminateLitAt(scene: Scene, m: Libm, obj: Object, position: Vector, direction: Vector,
                        lights: seq<PointLight>, color: Pixel, k: nat, p: Pixel)
    requires color.Valid()
    requires forall i :: 0 <= i < |lights| ==> lights[i].color.Valid()
    requires k < |lights| && LitBy(scene, m, obj, position, direction, lights[k], p)
    ensures var r := Illuminate(scene, m, obj, position, direction, lights[k..], color);
      r.Some? ==> p.r <= r.value.r && p.g <= r.value.g && p.b <= r.value.b
  {
    var tail := lights[k..];
    assert tail[0] == lights[k];
    assert forall i :: 0 <= i < |tail| ==> tail[i].color.Valid();
    StepLit(scene, m, obj, position, direction, lights[k], color, p);
  }

  /** `shade(_:lit:at:towards:level:)`: black past the recursion limit or
      without an object; otherwise the reflected colour, dimmed by the
      reflectivity and lit as from the reflection, then the lights, then the
      ambient boost. Every level deeper than `MaxRecursion` stops, so the
      recursion ends. */
  function Shade(scene: Scene, m: Libm, target: Option<Object>, position: Vector, direction: Vector, level: int): (r: Option<Pixel>)
    requires scene.Valid()
    requires target.Some? ==> target.value.Valid()
    ensures level > MaxRecursion || target.None? ==> r == Some(Black)
    ensures r.Some? ==> r.value.Valid()
    decreases MaxRecursion - level
  {
    if level > MaxRecursion || target.None? then Some(Black)
    else
      var obj := target.value;
      var reflection :- Reflection(obj, direction, position, m);
      var hit := Shoot(scene.objects, position, reflection, m);
      ShootFromScene(scene.objects, position, reflection, m);
      var color :-
        if hit.distance.Inf? then Some(Black)
        else
          var reflectedPosition := Along(position, reflection, hit.distance.t);
          var ambient :- Shade(scene, m, hit.obj, reflectedPosition, reflection, level + 1);
          DirectShade(obj, position, direction, Scale(reflection, -1.0), AttenuatePixel(ambient, obj.reflectivity), m);
      var lit :- Illuminate(scene, m, obj, position, direction, scene.lights, color);
      Some(BoostPixel(lit))
  }

  /** Without lights, a surface that reflects nothing is drawn black. */
  lemma DarkWithoutLights(scene: Scene, m: Libm, obj: Object, position: Vector, direction: Vector, level: int)
    requires scene.Valid() && obj.Valid()
    requires scene.lights == [] && obj.reflectivity == 0.0
    ensures var r := Shade(scene, m, Some(obj), position, direction, level);
      r.Some? ==> r.value == Black
  {
    if level <= MaxRecursion {
      var reflection := Reflection(obj, direction, position, m);
      if reflection.Some? {
        var hit := Shoot(scene.objects, position, reflection.value, m);
        ShootFromScene(scene.objects, position, reflection.value, m);
        if hit.distance.Finite? {
          var reflectedPosition := Along(position, reflection.value, hit.distance.t);
          var ambient := Shade(scene, m, hit.obj, reflectedPosition, reflection.value, level + 1);
          if ambient.Some? {
            assert AttenuatePixel(ambient.value, obj.reflectivity) == Black;
          }
        }
        DirectShadeBlack(obj, position, direction, Scale(reflection.value, -1.0), m);
      }
    }
  }

  /** The colour `shade` draws is no darker than the contribution of any light
      that reaches the surface point. */
  lemma ShadeLit(scene: Scene, m: Libm, obj: Object, position: Vector, direction: Vector, level: int,
                 k: nat, p: Pixel)
    requires scene.Valid() && obj.Valid() && level <= MaxRecursion
    requires k < |scene.lights| && LitBy(scene, m, obj, position, direction, scene.lights[k], p)
    ensures var r := Shade(scene, m, Some(obj), position, direction, level);
      r.Some? ==> p.r <= r.value.r && p.g <= r.value.g && p.b <= r.value.b
  {
    var reflection := Reflection(obj, direction, position, m);
    if reflection.Some? {
      var hit := Shoot(scene.objects, position, reflection.value, m);
      ShootFromScene(scene.objects, position, reflection.value, m);
      var color: Option<Pixel> :=
        if hit.distance.Inf? then Some(Black)
        else
          var reflectedPosition := Along(position, reflection.value, hit.distance.t);
          var ambient := Shade(scene, m, hit.obj, reflectedPosition, reflection.value, level + 1);
          if ambient.None? then None
          else DirectShade(obj, position, direction, Scale(reflection.value, -1.0),
                           AttenuatePixel(ambient.value, obj.reflectivity), m);
      if color.Some? {
        IlluminateLit(scene, m, obj, position, direction, scene.lights, color.value, k, p);
      }
    }
  }

  /** `o` is a plane whose normal has length one. */
  predicate UnitPlane(o: Object) {
    o.Plane? && Dot(o.normal, o.normal) == 1.0
  }

  /** With an exact square root, in a scene of planes with unit normals and no
      lights, `shade` is defined for every ray that travels along a non-zero
      direction: no normalisation along the way meets a zero vector. */
  lemma ShadeDefinedPlanes(scene: Scene, m: Libm, target: Option<Object>, position: Vector, direction: Vector,
                           level: int)
    requires scene.Valid() && ExactSqrt(m) && scene.lights == []
    requires forall o :: o in scene.objects ==> UnitPlane(o)
    requires target.Some? ==> target.value.Valid() && UnitPlane(target.value)
    requires direction != Zero
    ensures Shade(scene, m, target, position, direction, level).Some?
    decreases MaxRecursion - level
  {
    if level <= MaxRecursion && target.Some? {
      var obj := target.value;
      PlaneReflects(obj, direction, position, m);
      var reflection := Reflection(obj, direction, position, m).value;
      var hit := Shoot(scene.objects, position, reflection, m);
      ShootFromScene(scene.objects, position, reflection, m);
      if hit.distance.Finite? {
        var reflectedPosition := Along(position, reflection, hit.distance.t);
        ShadeDefinedPlanes(scene, m, hit.obj, reflectedPosition, reflection, level + 1);
        var ambient := Shade(scene, m, hit.obj, reflectedPosition, reflection, level + 1).value;
        PlaneLightDefined(obj, position, direction, reflection, AttenuatePixel(ambient, obj.reflectivity), m);
      }
    }
  }

  /** Light arriving against a non-zero reflected direction can always be
      shaded on a plane with a unit normal. */
  lemma PlaneLightDefined(o: Object, position: Vector, direction: Vector, reflection: Vector, light: Pixel, m: Libm)
    requires UnitPlane(o) && ExactSqrt(m) && reflection != Zero
    ensures DirectShade(o, position, direction, Scale(reflection, -1.0), light, m).Some?
  {
    var back := Scale(reflection, -1.0);
    assert back != Zero by {
      assert reflection == Scale(back, -1.0);
    }
    PlaneReflects(o, back, position, m);
  }
}

=== FILE: vector.dfy ===
/** Three-component vectors (Vector.swift). Swift `Float` components are
    modelled as reals, so the algebraic identities hold exactly. */
module Vectors {
  import opened Optional
  import opened MathLib

  datatype Vector = Vector(x: real, y: real, z: real)

  /** `Vector()`: every component defaults to zero. */
  const Zero := Vector(0.0, 0.0, 0.0)

  /** `scaled(by:)`: multiplies every component by `f`. `ScaleParallel` states
      that the result is parallel to `v`. */
  function Scale(v: Vector, f: real): Vector {
    Vector(v.x * f, v.y * f, v.z * f)
  }

  /** `added(to:)`: subtracting the addend again gives back `v`. */
  function Add(v: Vector, w: Vector): (r: Vector)
    ensures Sub(r, w) == v
  {
    Vector(v.x + w.x, v.y + w.y, v.z + w.z)
  }

  /** `subtracted(by:)`: the difference is zero exactly for equal vectors. */
  function Sub(v: Vector, w: Vector): (r: Vector)
    ensures r == Zero <==> v == w
  {
    Vector(v.x - w.x, v.y - w.y, v.z - w.z)
  }

  /** `dotted(with:)`: a vector's dot product with itself is never negative. */
  function Dot(v: Vector, w: Vector): (r: real)
    ensures v == w ==> 0.0 <= r
  {
    (v.x * w.x) + (v.y * w.y) + (v.z * w.z)
  }

  /** `crossed(with:)`: the result is orthogonal to both operands. */
  function Cross(v: Vector, w: Vector): (r: Vector)
    ensures Dot(v, r) == 0.0
    ensures Dot(w, r) == 0.0
  {
    Vector(v.y * w.z - v.z * w.y,
           v.z * w.x - v.x * w.z,
           v.x * w.y - v.y * w.x)
  }

  /** `magnitude()`: `sqrtf` of the squared length. With an exact square root it is
      non-negative, squares back to the squared length, and is zero exactly for
      the zero vector. */
  function Magnitude(v: Vector, m: Libm): (r: real)
    ensures ExactSqrt(m) ==> 0.0 <= r && r * r == Dot(v, v)
    ensures ExactSqrt(m) ==> (r == 0.0 <==> v == Zero)
  {
    SqrtOfZeroLength(v, m);
    m.sqrt(Dot(v, v))
  }

  /** With an exact square root, the square root of the squared length is zero
      exactly for the zero vector. */
  lemma SqrtOfZeroLength(v: Vector, m: Libm)
    ensures ExactSqrt(m) ==> (m.sqrt(Dot(v, v)) == 0.0 <==> v == Zero)
  {
    if ExactSqrt(m) && m.sqrt(Dot(v, v)) == 0.0 {
      DotSelfZero(v);
    }
  }

  /** Only the zero vector has squared length zero. */
  lemma DotSelfZero(v: Vector)
    ensures Dot(v, v) == 0.0 ==> v == Zero
  {
    var xx, yy, zz := Product(v.x, v.x), Product(v.y, v.y), Product(v.z, v.z);
    SquarePositive(v.x);
    SquarePositive(v.y);
    SquarePositive(v.z);
  }

  /** A square is never negative, and positive unless its root is zero. */
  lemma SquarePositive(x: real)
    ensures 0.0 <= Product(x, x)
    ensures x != 0.0 ==> 0.0 < Product(x, x)
  {
    if x < 0.0 {
      PositiveProduct(-x, -x);
    } else if 0.0 < x {
      PositiveProduct(x, x);
    }
  }

  lemma PositiveProduct(a: real, b: real)
    requires 0.0 < a && 0.0 < b
    ensures 0.0 < Product(a, b)
  {
  }

  /** `unit()`, which divides every component by the magnitude and so is only
      defined when that is non-zero. Scaling back by the magnitude recovers `v`. */
  function Unit(v: Vector, m: Libm): (r: Vector)
    requires Magnitude(v, m) != 0.0
    ensures Scale(r, Magnitude(v, m)) == v
  {
    var mag := Magnitude(v, m);
    DivMul(v.x, mag);
    DivMul(v.y, mag);
    DivMul(v.z, mag);
    Vector(v.x / mag, v.y / mag, v.z / mag)
  }

  /** `unit()` where the magnitude may be zero: `None` stands for the source's
      division by zero, which with an exact square root the zero vector hits. */
  function TryUnit(v: Vector, m: Libm): (r: Option<Vector>)
    ensures r.Some? <==> Magnitude(v, m) != 0.0
    ensures r.Some? ==> Scale(r.value, Magnitude(v, m)) == v
    ensures ExactSqrt(m) ==> (r.None? <==> v == Zero)
  {
    if Magnitude(v, m) == 0.0 then None else Some(Unit(v, m))
  }

  /** The `+` operator agrees with `added(to:)`. */
  function Plus(left: Vector, right: Vector): (r: Vector)
    ensures r == Add(left, right)
  {
    Vector(left.x + right.x, left.y + right.y, left.z + right.z)
  }

  /** The `-` operator agrees with `subtracted(by:)`. */
  function Minus(left: Vector, right: Vector): (r: Vector)
    ensures r == Sub(left, right)
  {
    Vector(left.x - right.x, left.y - right.y, left.z - right.z)
  }

  /** The `Vector * Float` operator agrees with `scaled(by:)`. */
  function Times(left: Vector, right: real): (r: Vector)
    ensures r == Scale(left, right)
  {
    Vector(left.x * right, left.y * right, left.z * right)
  }

  /** The `Float * Vector` operator, defined by swapping its operands, agrees with
      `scaled(by:)`, so scalar multiplication commutes. */
  function TimesLeft(left: real, right: Vector): (r: Vector)
    ensures r == Scale(right, left)
  {
    Times(right, left)
  }

  /** The `==` operator compares component-wise; over the reals that is exactly
      structural equality. */
  function Equal(left: Vector, right: Vector): (r: bool)
    ensures r <==> left == right
  {
    left.x == right.x && left.y == right.y && left.z == right.z
  }

  /** The end point of a ray: `direction.scaled(by: t).added(to: origin)`. */
  function Along(origin: Vector, direction: Vector, t: real): (r: Vector)
    ensures Sub(r, origin) == Scale(direction, t)
  {
    Add(Scale(direction, t), origin)
  }

  lemma DotSymmetric(v: Vector, w: Vector)
    ensures Dot(v, w) == Dot(w, v)
  {
  }

  lemma EqualReflexiveSymmetric(v: Vector, w: Vector)
    ensures Equal(v, v)
    ensures Equal(v, w) == Equal(w, v)
  {
  }

  /** A scaled vector is parallel to the original, with squared length scaled
      by `f * f`. */
  lemma ScaleParallel(v: Vector, f: real)
    ensures Cross(Scale(v, f), v) == Zero
    ensures Dot(Scale(v, f), Scale(v, f)) == f * f * Dot(v, v)
  {
  }

  /** The dot product is linear in a scaled operand. */
  lemma DotScale(v: Vector, f: real, w: Vector)
    ensures Dot(Scale(v, f), w) == f * Dot(v, w)
  {
  }

  /** The dot product is linear in a sum operand. */
  lemma DotAdd(u: Vector, v: Vector, w: Vector)
    ensures Dot(Add(u, v), w) == Dot(u, w) + Dot(v, w)
  {
    Distribute(u.x, v.x, w.x);
    Distribute(u.y, v.y, w.y);
    Distribute(u.z, v.z, w.z);
  }

  /** The dot product of a point along a ray with `n` grows linearly in the ray
      parameter, at the rate `n . direction`. */
  lemma AlongDot(origin: Vector, direction: Vector, t: real, n: Vector)
    ensures Dot(Along(origin, direction, t), n) == t * Dot(n, direction) + Dot(origin, n)
  {
    Distribute(direction.x * t, origin.x, n.x);
    Distribute(direction.y * t, origin.y, n.y);
    Distribute(direction.z * t, origin.z, n.z);
  }

  /** With an exact square root, `unit()` of a non-zero vector has length one. */
  lemma UnitLength(v: Vector, m: Libm)
    requires Magnitude(v, m) != 0.0
    ensures ExactSqrt(m) ==> Dot(Unit(v, m), Unit(v, m)) == 1.0
  {
    if ExactSqrt(m) {
      var mag, u := Magnitude(v, m), Unit(v, m);
      ScaleParallel(u, mag);
      NonZeroSquare(mag);
      Cancel(mag * mag, Dot(u, u), Dot(v, v));
    }
  }

  /** `a * d == a` with `a` non-zero forces `d == 1`. */
  lemma Cancel(a: real, d: real, b: real)
    requires a != 0.0 && a == b && b == a * d
    ensures d == 1.0
  {
    Distribute(d, -1.0, a);
    ZeroProduct(a, d + -1.0);
  }

  lemma NonZeroSquare(f: real)
    requires f != 0.0
    ensures f * f != 0.0
  {
  }

  lemma ZeroProduct(a: real, b: real)
    requires a != 0.0 && b * a == 0.0
    ensures b == 0.0
  {
  }

  lemma Distribute(a: real, b: real, c: real)
    ensures (a + b) * c == a * c + b * c
  {
  }

  lemma DivMul(x: real, d: real)
    requires d != 0.0
    ensures (x / d) * d == x
  {
  }
}
